=== FILE: README.md ===
# CameraThing core, in Dafny

CameraThing is an ESP32 camera that tweets what it sees. The firmware
(`camera-thing/main`) animates a status LED, watches a push button, prints
frames as ASCII art, joins WiFi and talks HTTP to a tweeter service. The
service (`tweeter`) checks the request, asks an image recogniser for labels,
builds the tweet text and posts it. This project models the sequential logic
of both sides as pure Dafny functions over immutable data and proves
properties of it.

| module | file | models |
|---|---|---|
| `Basics` | basics.dfy | `Option`, `Result`, octets, conversion to 32-bit `unsigned long` |
| `Text` | text.dfy | decimal numerals (`String(n)`, `%d`) and the split made by repeated `readStringUntil` |
| `AsyncLed` | async_led.dfy | the `AsyncLED` controller: `on`, `off`, `set`, `blink`, `breathe`, `killAnimation`, with an explicit heap, task table and PWM write log; the blink waveform |
| `MainLoop` | main_loop.dfy | `loop` (button edge detection, log lines, LED script, yield counter) and the LED bracketing of `setup`; the LED scripts run on the controller with `breathe` corrected (see Findings) |
| `Camera` | camera.dfy | `frameBufferToSerial` |
| `WifiClient` | wifi_client.dfy | `ip2str` and the retry loop of `setupWifiClient` |
| `TweeterClient` | tweeter_client.dfy | the health and tweet requests, the wait for a response, the status-line scan, `checkTweeterAccessible`, `makeTweetRequest` |
| `ServiceConfig` | service_config.dfy | `newTweetEndpoint`, `newRecogniser`, `newTweeter` |
| `TweetEndpoint` | tweet_endpoint.dfy | the `/tweet` handler: auth gate, coordinate rules, `strings.Title`, tweet text, reply |

The firmware's environment is passed in as parameters:
- `WiFi.status()` is an oracle over (attempt, trial).
- The socket is a `connects` flag, a sequence of wait-loop observations (`available()`, `millis()`) and the response text.
- `%02.5f` and `%.5f` formatting are oracles.
- The throb animation that `main.cpp` calls is an oracle, because the controller of this revision does not define it.

The service's callees are the fields of a `Services` value: `strconv.ParseFloat`, the recogniser, JPEG decoding, upscaling and the Twitter call. An environment variable is `Option<string>`.

Integers are unbounded. Two places need 32-bit width, and both use `ToU32`:
- the elapsed-time test of the wait loops, where `millis() - startTime` and the timeout are taken modulo 2^32, as `unsigned long` arithmetic does (`Expired`);
- the duty of `on`, `off` and `set`, which `ledcWrite` receives as `uint32_t` (`StaticWrite`).

## Model

| member | source | states |
|---|---|---|
| AsyncLed.NewLed | camera-thing/main/asyncLed.h:16 | a new instance keeps its pin and channel and is not animating |
| AsyncLed.KillAnimation | camera-thing/main/asyncLed.cpp:136-159 | the flag is cleared; the task is deleted only if the LED was animating; both global records are freed and nulled, whoever allocated them; nothing is written; heap validity is kept |
| AsyncLed.KillIdempotent | camera-thing/main/asyncLed.cpp:136-159 | a second `killAnimation` changes nothing |
| AsyncLed.KillDeletesTaskIffAnimating | camera-thing/main/asyncLed.cpp:138-143 | the LED's task disappears exactly when `animating` was true |
| AsyncLed.StaticWrite | camera-thing/main/asyncLed.cpp:15-31 | kill, then exactly one write appended on channel 15; its duty is the argument modulo 2^32, as `uint32_t` receives it; all else as the kill left it |
| AsyncLed.On | camera-thing/main/asyncLed.cpp:15-19 | after `on`: not animating, tasks and records as after a kill, one new write of 255 on channel 15 |
| AsyncLed.Off | camera-thing/main/asyncLed.cpp:21-25 | after `off`: not animating, both pointers null, one new write of 0 on channel 15 |
| AsyncLed.Set | camera-thing/main/asyncLed.cpp:27-31 | after `set(d)`: not animating, and a duty `d` in range is written unchanged to channel 15 |
| AsyncLed.Blink | camera-thing/main/asyncLed.cpp:45-75 | after `blink(delay)` the LED animates and its live task reads the record {pin, channel, delay} that the blink pointer holds; the breathe pointer is null; nothing is written |
| AsyncLed.SoloBlink | camera-thing/main/asyncLed.cpp:50-74 | with one LED, exactly one task is alive after `blink`, its own |
| AsyncLed.SoloStaticPreserved | camera-thing/main/asyncLed.cpp:15-31 | with one LED, no task is alive after `on`, `off`, `set` or a kill |
| AsyncLed.Breathe | camera-thing/main/asyncLed.cpp:90-130 | `breathe` as written: from rest the task reads {pin, channel, period}; if an animation was running, the kill frees the new record and nulls the breathe pointer, and the new task is created with that null pointer as its argument |
| AsyncLed.SoloBreathe | camera-thing/main/asyncLed.cpp:117-129 | with one LED, exactly one task is alive after `breathe` |
| AsyncLed.BreatheNullArgument | camera-thing/main/asyncLed.cpp:92-129 | after `blink(100)`, `breathe(500)` creates its task with a `nullptr` argument, and its own record is already freed |
| AsyncLed.BreatheFixed | camera-thing/main/asyncLed.cpp:90-130 | `breathe` with the kill moved before the allocation: the task always gets a non-null argument and reads its own live record |
| AsyncLed.BreatheFixedAgreesFromRest | camera-thing/main/asyncLed.cpp:119-121 | from rest with both pointers null, the corrected and the original `breathe` agree |
| AsyncLed.OffFreesAnotherLedsRecord | camera-thing/main/asyncLed.cpp:43-53 | `off` on a second, idle LED frees the record that a blinking LED's task still reads |
| AsyncLed.OnIgnoresOwnChannel | camera-thing/main/asyncLed.cpp:15-19 | an LED on channel 14 turned on writes channel 15 |
| AsyncLed.StaticWriteFixed | camera-thing/main/asyncLed.cpp:15-31 | the corrected static write goes to the instance's own channel |
| AsyncLed.StaticWriteFixedOwnChannel | camera-thing/main/asyncLed.cpp:18 | the corrected write's channel is the LED's, and on channel 15 it equals the original |
| AsyncLed.WaitedMs | camera-thing/main/asyncLed.h:6 | `WAIT_MS(n)` waits `n` rounded down to whole ticks |
| AsyncLed.BlinkWrite | camera-thing/main/asyncLed.cpp:60-65 | every write of the blink task goes to the record's channel; write k is 255 iff k is even, and 0 otherwise |
| AsyncLed.BlinkAlternates | camera-thing/main/asyncLed.cpp:60-65 | the first write is 255 and consecutive writes always differ |
| AsyncLed.BlinkDutyAt | camera-thing/main/asyncLed.cpp:56-66 | at time t the blink channel holds 255 iff t mod 2h < h, and 0 otherwise, where h is the delay rounded to ticks |
| AsyncLed.BlinkScenario | camera-thing/main/asyncLed.cpp:60-65 | `blink(100)` with 1 ms ticks is lit at 50 ms and dark at 150 ms |
| MainLoop.LoopStep | camera-thing/main/main.cpp:62-103 | `buttonDown` becomes the sample; capture iff released-to-pressed; a log line iff the state changed, with the matching text; the LED script on capture; `loopN` + 1; yield iff the old `loopN` is a multiple of 100000 |
| MainLoop.RunLoop | camera-thing/main/main.cpp:28-31 | from `buttonDown = false`, the number of captures is the number of rising edges, the number of log lines the number of changes, and the pauses are ceil(n / 100000) |
| MainLoop.HoldFiresOnce | camera-thing/main/main.cpp:77 | holding the button across any number of loops fires the capture once |
| MainLoop.EdgesAlternate | camera-thing/main/main.cpp:68-77 | twice the presses equals the state changes, plus one while still held |
| MainLoop.ScriptEndingOffLeavesLedOff | camera-thing/main/main.cpp:96 | any LED script that ends with `off` leaves the LED idle, both pointers null and the last write 0 on channel 15 |
| MainLoop.CaptureEndsOff | camera-thing/main/main.cpp:81-96 | the capture script is on, off, throb(900, 100), off, and leaves the LED off |
| MainLoop.SetupBracketing | camera-thing/main/main.cpp:45-59 | `setup` breathes with a live record from power-on and ends with no task, record or pointer, and a single write of 0 |
| Camera.ScaleIndex | camera-thing/main/camera.cpp:108-111 | `byte / 26` is at most 9, inside the ten-character scale |
| Camera.ScaleMonotone | camera-thing/main/camera.cpp:111 | a brighter byte never gets a darker character |
| Camera.PixelText | camera-thing/main/camera.cpp:111-115 | a pixel prints its scale character twice, then a newline iff it ends a row |
| Camera.OffsetClosedForm | camera-thing/main/camera.cpp:110-116 | the text before pixel i is 2i + i / width characters long |
| Camera.FrameBufferToSerial | camera-thing/main/camera.cpp:106-123 | the output is the pixel text followed by exactly the metadata line; defined for every width when the buffer is empty |
| Camera.EmptyFrameMetadataOnly | camera-thing/main/camera.cpp:109-122 | an empty frame prints only its metadata line, whatever its width, zero included |
| Camera.SerialLength | camera-thing/main/camera.cpp:110-122 | the output has 2·len + len/width characters before the metadata line |
| Camera.RenderPrefix | camera-thing/main/camera.cpp:110-116 | printing more pixels only extends the text |
| Camera.PixelPlacement | camera-thing/main/camera.cpp:111-115 | pixel i's character sits twice at its offset, followed by a newline at a row end or by the next pixel's character |
| Camera.NewlineAfterPixel | camera-thing/main/camera.cpp:113-115 | in the full output, a newline follows pixel i's pair iff i % width == width - 1 |
| Text.DecimalRoundTrip | camera-thing/main/wifiClient.cpp:15 | reading back a decimal numeral gives the number |
| Text.DecimalInjective | camera-thing/main/wifiClient.cpp:15 | distinct numbers get distinct numerals |
| WifiClient.Ip2StrInjective | camera-thing/main/wifiClient.cpp:13-17 | `ip2str` gives distinct addresses distinct strings |
| WifiClient.Ip2Str | camera-thing/main/wifiClient.cpp:13-17 | the dotted quad parses back to the four octets, in index order |
| WifiClient.Ip2StrParses | camera-thing/main/wifiClient.cpp:14-16 | the four decimals joined by dots parse back to the octets |
| WifiClient.SplitFour | camera-thing/main/wifiClient.cpp:15-16 | four dot-free pieces joined by dots split back into the pieces |
| WifiClient.SetupWifiClient | camera-thing/main/wifiClient.cpp:23-71 | a build without `WIFI_SSID` or `WIFI_PASS` fails at once with no `begin`, poll or wait; otherwise success iff some poll within the bounds connects; it stops at the first such poll; failure only after all attempts and trials; `begin` at most `maxAttempts` times; waits at most `maxTrials·maxAttempts`; one " failed!" per attempt whose first 60 polls fail |
| WifiClient.WaitsBound | camera-thing/main/wifiClient.cpp:19-22 | the waits of a successful run stay within the documented worst case |
| TweeterClient.HealthRequest | camera-thing/main/tweeter.cpp:38-40 | the health request ends in CRLF CRLF, and split at LF gives its request line, Host line, Connection line and the blank line |
| TweeterClient.TargetShape | camera-thing/main/tweeter.cpp:104-108 | the target starts with `/tweet?auth=` and the token, and goes on past it exactly when geolocation is on, with `&lat=` first |
| TweeterClient.RequestLineParts | camera-thing/main/tweeter.cpp:104-109 | the request line ends in CRLF and has exactly the parts POST, target, HTTP/1.1 |
| TweeterClient.TweetHeadParts | camera-thing/main/tweeter.cpp:104-113 | the head ends in CRLF CRLF; split at LF it gives its six lines; the Content-Length value reads back as the JPEG length + 1000 |
| TweeterClient.TweetRequest | camera-thing/main/tweeter.cpp:104-118 | the request starts with the head, whose lines split back as the six header lines; a receiver that ends the part at the first delimiter reads the JPEG back intact when the JPEG holds no `\r\n--boundary`, and a proper prefix of it otherwise; the rest is 897 octets shorter than the declared Content-Length |
| TweeterClient.ByteText | camera-thing/main/tweeter.cpp:117 | the JPEG goes out one character per octet, unchanged |
| TweeterClient.FirstDelimiter | tweeter/tweetEndpoint.go:103 | the position found is an occurrence of `\r\n--boundary` and no earlier position is one; without an occurrence it is the length |
| TweeterClient.ImageRoundTrip | camera-thing/main/tweeter.cpp:114-118 | a receiver ending the part at the first delimiter gets the JPEG back intact when the JPEG's octets hold no `\r\n--boundary`, and a proper prefix of it when they do |
| TweeterClient.ReceivedPrefix | camera-thing/main/tweeter.cpp:114-118 | the receiver gets exactly the JPEG's octets before the first delimiter inside them |
| TweeterClient.FirstInJoin | camera-thing/main/tweeter.cpp:117-118 | the closing, which starts with a delimiter, never ends the part before the JPEG's own first delimiter, and no delimiter straddles JPEG and closing |
| TweeterClient.ClosingAsImageReadsEmpty | camera-thing/main/tweeter.cpp:114-118 | a JPEG made of the closing's 18 octets arrives as an empty image |
| TweeterClient.ContentLengthOverstates | camera-thing/main/tweeter.cpp:112-118 | the body is the JPEG length + 103, so the declared length is 897 too large |
| TweeterClient.AwaitFrom | camera-thing/main/tweeter.cpp:53-62 | the wait ends at the first pass with data or with the timeout elapsed, and every earlier pass had neither |
| TweeterClient.NoDataTimesOut | camera-thing/main/tweeter.cpp:126-136 | with no data, a pass that sees the timeout elapsed ends the wait by then with a time-out |
| TweeterClient.ReadyDataWins | camera-thing/main/tweeter.cpp:54 | data present at the first pass is taken whatever the clock says |
| TweeterClient.NegativeTimeoutWaitsLong | camera-thing/main/tweeter.cpp:55 | a negative timeout, compared as unsigned, does not expire within 2^31 ms |
| TweeterClient.ScanResponse | camera-thing/main/tweeter.cpp:68-79 | the loop reads the CR-delimited pieces of the response and succeeds iff one equals the status |
| TweeterClient.LeftoverNewlines | camera-thing/main/tweeter.cpp:70-72 | for CRLF-framed lines followed by a body without CR, every piece after the first CR starts with the left-over LF |
| TweeterClient.OnlyFirstLineCounts | camera-thing/main/tweeter.cpp:141-152 | for a CRLF-framed head followed by any body without CR (such as JSON ending in a bare LF), only the status line can match |
| TweeterClient.CreatedJsonReply | camera-thing/main/tweeter.cpp:141-152 | a reply of status line, a `Content-Type` header as its only header, blank line and a JSON body makes the tweet call's scan succeed iff the status line is `HTTP/1.1 201 Created` |
| TweeterClient.Exchange | camera-thing/main/tweeter.cpp:49-86 | the request is sent; success iff data arrives in time and the scan matches; `stop` iff the call returned |
| TweeterClient.CheckTweeterAccessible | camera-thing/main/tweeter.cpp:29-87 | a failed connect returns false and sends nothing; success iff connected, data in time and a `200 OK` line; a time-out returns false |
| TweeterClient.MakeTweetRequest | camera-thing/main/tweeter.cpp:94-160 | a failed connect returns false and sends nothing; success iff connected, data in time and a `201 Created` line; a time-out returns false |
| TweeterClient.TweetSucceedsIffCreated | camera-thing/main/tweeter.cpp:143-159 | with data in time and a reply made of CRLF-framed header lines and a body without CR, the tweet call succeeds iff the status line is `HTTP/1.1 201 Created` |
| ServiceConfig.NewTweetEndpoint | tweeter/tweetEndpoint.go:24-38 | a set token is used verbatim; unset gives "dev" in DEV, an error in PROD and "" elsewhere |
| ServiceConfig.UnsetTokenOutsideDevAndProd | tweeter/tweetEndpoint.go:26-37 | outside DEV and PROD an unset token is the empty string |
| ServiceConfig.NewRecogniser | tweeter/recogniser.go:21-35 | as written: succeeds, with the default endpoint, only when the variable is unset in DEV |
| ServiceConfig.RecogniserRejectsSetEndpoint | tweeter/recogniser.go:23-29 | a set endpoint always makes the constructor fail |
| ServiceConfig.NewRecogniserFixed | tweeter/recogniser.go:21-35 | corrected: a set endpoint is used, and an unset one behaves as before |
| ServiceConfig.RecogniserFixedAgrees | tweeter/recogniser.go:24-29 | the corrected constructor fails iff the variable is unset outside DEV, and agrees wherever the original succeeds |
| ServiceConfig.NewTweeter | tweeter/tweeter.go:21-72 | a log-only "Dev" tweeter iff the credentials are incomplete in DEV; an error when incomplete elsewhere; otherwise a client iff the credentials verify |
| TweetEndpoint.TitleAt | tweeter/tweetEndpoint.go:133 | a rune is title-cased exactly when the rune before it (a space at the start) is a separator |
| TweetEndpoint.TitleIdempotent | tweeter/tweetEndpoint.go:133 | title-casing twice is title-casing once |
| TweetEndpoint.TitleCapitalisesWords | tweeter/tweetEndpoint.go:133 | no word starts with a lower-case ASCII letter afterwards, and runs inside words are kept |
| TweetEndpoint.LabelText | tweeter/tweetEndpoint.go:132-134 | label text is empty iff there are no labels, and at least two characters per label |
| TweetEndpoint.TweetText | tweeter/tweetEndpoint.go:130-145 | the tweet text is never empty |
| TweetEndpoint.BuildTweetText | tweeter/tweetEndpoint.go:130-145 | the handler's loop builds exactly the reference tweet text |
| TweetEndpoint.LabelsBeyondFiveIgnored | tweeter/tweetEndpoint.go:132 | labels after the fifth never reach the tweet |
| TweetEndpoint.FailureLikeNoLabels | tweeter/tweetEndpoint.go:121-140 | a failed recognition gives the same text as no labels, starting "I have no idea. " |
| TweetEndpoint.TweetTextShape | tweeter/tweetEndpoint.go:132-145 | the text starts with the first label title-cased and "? ", and ends with ")" iff both coordinates are present |
| TweetEndpoint.Handle | tweeter/tweetEndpoint.go:41-190 | statuses are 201/400/401/500; 401 iff the token differs, with nothing else done; the recogniser is asked iff the request is admissible and has an image; 400 iff the token matches but a coordinate rule fails or the image is missing; a 201 reply carries the posted text |
| TweetEndpoint.RangeBeforePairing | tweeter/tweetEndpoint.go:61-99 | a lone out-of-range latitude draws the range message, not the pairing one |
| TweetEndpoint.RangesAsWritten | tweeter/tweetEndpoint.go:65-83 | latitude is checked against ±180 and longitude against ±90: (39.9, 116.4) is refused and latitude 100 passes |
| TweetEndpoint.AbsentCoordinatesProceed | tweeter/tweetEndpoint.go:61-87 | empty or unparsable coordinates count as absent and the request goes on |
| TweetEndpoint.OneCoordinateRejected | tweeter/tweetEndpoint.go:85-99 | exactly one coordinate present gives 400 with the pairing message |
| TweetEndpoint.CreatedIff | tweeter/tweetEndpoint.go:143-190 | 201 iff admissible, with an image that decodes and upscales, and Twitter accepts; the URL is present iff a tweet object came back |
| TweetEndpoint.ConfiguredTokenGate | tweeter/tweetEndpoint.go:24-53 | only the configured token passes the gate, and with the variable unset outside DEV a request without `auth` passes |

## Left out

- The breathe brightness curve (`sin`, float rounding) is not modelled, because it is floating point. `Breathe` models only the record and task lifecycle. A task created with a null argument is marked as such (`ReadsNull`). The crash its first `params->period` would cause is not modelled further.
- TweeterClient.OnlyFirstLineCounts: a reply whose body holds a raw CR is not covered (a chunked transfer coding would put CRLF into it). The service's JSON bodies escape CR inside strings and end in a bare LF, so they have none.
- FreeRTOS scheduling, preemption, core pinning and the timing of render-task writes are not modelled. A task is an entry in a table holding the address of its record. The blink waveform assumes writes exactly `h` ms apart.
- The `ledcSetup` and `ledcAttachPin` calls of the constructor are not modelled.
- `Serial` logging is not modelled, with three exceptions: the whole output of `frameBufferToSerial` (`Camera.FrameBufferToSerial`), the button-change lines of `loop` and the " failed!" notices of `setupWifiClient`.
- The capture block's `geolocate(&lat, &lon, 1000)` call and its "Got geolocation" line are not modelled. `LoopOutput` has no place for them, because geolocation is outside this model.
- `xTaskCreatePinnedToCore` is assumed to succeed. The source ignores its result and sets `animating` anyway, so a failed creation would leave a stale handle for the next `vTaskDelete`. `StartTask` always succeeds.
- `throb` is not defined by the controller of this revision. It is a caller-supplied function of the controller state.
- `loopN` is an unbounded integer. The signed overflow after 2^31 calls is not modelled.
- AsyncLed.BlinkDutyAt: delays below one tick are not covered, negative ones included. `WaitedMs` takes a natural number, and the waveform requires `tickMs <= delay` so that the half period is positive.
- TweetEndpoint.Title: `unicode.ToTitle` is modelled on ASCII letters only. Non-ASCII letters are kept unchanged, which is weaker than Go's mapping.
- The classification of non-ASCII letters and digits is also simplified. They are never separators, exactly as in Go, but only the Unicode white-space runes are listed individually.
- `strconv.ParseFloat` is an oracle returning a real or nothing. The NaN and infinity it can return are not modelled. A NaN would pass both range checks.
- JPEG decoding, upscaling, the recogniser's HTTP call, the Twitter client and JSON encoding are oracles or datatype values. The `Content-Type` response header and the log lines are not modelled.
- `%02.5f` and `%.5f` formatting are oracles.
- TweeterClient.TweetHeadParts: the `size_t` arithmetic of `jpgLen + 1000` and its `%d` formatting are modelled on unbounded naturals, so wrap-around for lengths near 2^32 is not covered.
- TweeterClient.ImageRoundTrip: the JPEG is not checked for the delimiter before it is sent, and the fixed boundary `boundary` is not replaced by one absent from the image. The model states what a receiver then reads, and does not promise the image arrives whole. The receiver is modelled only as far as it finds the part's end; its header parsing is the fixed opening.
- The count of bytes actually written by `webClient.write` (`written`) is not modelled. The model sends the whole JPEG.
- `readStringUntil` timeouts and a response arriving in several parts are not modelled. The scan reads the whole response text.
- The `setupNetworkConn` wrappers and the GPRS client are not modelled.
- `env` is compared with DEV and PROD, but `tweeter/main.go` never assigns it. The model takes `env` as a parameter.

## Findings

| source | as written | input that shows it | evidently intended | confidence | as-written member | corrected member |
|---|---|---|---|---|---|---|
| camera-thing/main/asyncLed.cpp:92-121 | `breathe` allocates and publishes its record before the conditional `killAnimation`, which frees every record the global pointers hold | `blink(100)` then `breathe(500)` on one LED: the kill frees the new record and nulls the pointer, and the task is created with `nullptr` | kill first, then allocate, as `blink` does | high, not executed | AsyncLed.BreatheNullArgument | AsyncLed.BreatheFixed |
| camera-thing/main/asyncLed.cpp:18 | `on`, `off` and `set` write to literal channel 15 | an LED built on channel 14 writes channel 15 when turned on | write to the instance's `channel` | medium, not executed | AsyncLed.OnIgnoresOwnChannel | AsyncLed.StaticWriteFixedOwnChannel |
| tweeter/recogniser.go:24-29 | the `else` branch errs whenever the variable is not both unset and in DEV, including when it is set | `RECOGNISER_ENDPOINT` set to any value: the constructor fails | use a set variable; err only when it is unset outside DEV | high, not executed | ServiceConfig.RecogniserRejectsSetEndpoint | ServiceConfig.RecogniserFixedAgrees |

=== FILE: async_led.dfy ===
/** The AsyncLED controller of camera-thing/main/asyncLed.cpp.

    An LED instance keeps an `animating` flag and a FreeRTOS task handle.
    The parameter records of the running animation are reached through two
    FILE-SCOPE pointers (`currBlinkAnimationParams`,
    `currBreatheAnimationParams`), so every LED instance shares them.  The
    model makes memory explicit: `heap` holds the live records, an allocation
    takes the next fresh address, `delete` removes the address from `heap`,
    and a task keeps the pointer value it was created with, which may be
    null.  A task whose address is no longer in `heap` reads freed memory;
    one created with a null pointer dereferences `nullptr`.

    `pwm` records, in order, the duty-cycle writes the controller itself makes
    (`on`, `off`, `set`).  The writes of a render task happen on another core
    and are described separately, by the blink waveform at the end. */
module AsyncLed {
  import opened Basics

  type Addr = nat
  type TaskId = nat

  /** `on`, `off` and `set` write to this literal channel, not to the
      instance's own channel. */
  const StaticChannel: int := 15
  const FullDuty: int := 255

  /** The heap records `blinkAnimationParams` and `breatheAnimationParams`. */
  datatype Params =
    | BlinkParams(pin: int, channel: int, delay: int)
    | BreatheParams(pin: int, channel: int, period: int)

  /** The loop a render task runs. */
  datatype Routine = BlinkLoop | BreatheLoop

  /** A live render task: its loop and the `void*` argument it was created
      with, the address of the record it reads (None is `nullptr`). */
  datatype Task = Task(routine: Routine, arg: Option<Addr>)

  /** One `ledcWrite(channel, duty)`; `duty` is the `uint32_t` the call receives. */
  datatype PwmWrite = PwmWrite(channel: int, duty: int)

  /** Everything shared by all LED instances: the allocator, the two global
      parameter pointers (None is `nullptr`), the live tasks and the write log. */
  datatype Shared = Shared(
    heap: map<Addr, Params>,
    nextAddr: Addr,
    blinkParams: Option<Addr>,
    breatheParams: Option<Addr>,
    tasks: map<TaskId, Task>,
    nextTask: TaskId,
    pwm: seq<PwmWrite>)

  /** One `AsyncLED` object.  `animationTask` is None until a task is created. */
  datatype Led = Led(pin: int, channel: int, animating: bool, animationTask: Option<TaskId>)

  /** The LED and the shared state after an operation. */
  datatype Step = Step(led: Led, shared: Shared)

  /** Program start: globals are zero-initialised, so both pointers are null. */
  const Boot: Shared := Shared(map[], 0, None, None, map[], 0, [])

  /** A freshly constructed instance (`animating = false`, asyncLed.h:16). */
  function NewLed(pin: int, channel: int): (led: Led)
    ensures !led.animating && led.pin == pin && led.channel == channel
  {
    Led(pin, channel, false, None)
  }

  /** Allocator and pointer sanity: live addresses and task ids were handed
      out, and a non-null global pointer refers to a live record. */
  ghost predicate Valid(sh: Shared) {
    && (forall a :: a in sh.heap ==> a < sh.nextAddr)
    && (forall t :: t in sh.tasks ==> t < sh.nextTask)
    && (sh.blinkParams.Some? ==> sh.blinkParams.value in sh.heap)
    && (sh.breatheParams.Some? ==> sh.breatheParams.value in sh.heap)
  }

  /** The record the LED's render task reads, if that task is alive and its
      record has not been freed. */
  function TaskRecord(led: Led, sh: Shared): Option<Params> {
    if led.animationTask.Some? && led.animationTask.value in sh.tasks
       && sh.tasks[led.animationTask.value].arg.Some?
       && sh.tasks[led.animationTask.value].arg.value in sh.heap
    then Some(sh.heap[sh.tasks[led.animationTask.value].arg.value])
    else None
  }

  /** The LED's render task is alive but reads a freed record. */
  predicate ReadsFreedRecord(led: Led, sh: Shared) {
    && led.animationTask.Some?
    && led.animationTask.value in sh.tasks
    && sh.tasks[led.animationTask.value].arg.Some?
    && sh.tasks[led.animationTask.value].arg.value !in sh.heap
  }

  /** The LED's render task is alive and was created with a null argument:
      its first `params->...` dereferences `nullptr`. */
  predicate ReadsNull(led: Led, sh: Shared) {
    && led.animationTask.Some?
    && led.animationTask.value in sh.tasks
    && sh.tasks[led.animationTask.value].arg.None?
  }

  /** The only task alive is the one this LED started, and only while it
      animates: the situation of a program with a single LED instance. */
  ghost predicate Solo(led: Led, sh: Shared) {
    && (led.animating ==> led.animationTask.Some?)
    && sh.tasks.Keys == (if led.animating then {led.animationTask.value} else {})
  }

  /** The addresses the two global pointers hold. */
  function Pointed(sh: Shared): set<Addr> {
    (if sh.blinkParams.Some? then {sh.blinkParams.value} else {})
      + (if sh.breatheParams.Some? then {sh.breatheParams.value} else {})
  }

  /** `delete p` for a non-null `p`. */
  function Free(heap: map<Addr, Params>, p: Option<Addr>): map<Addr, Params> {
    if p.Some? then heap - {p.value} else heap
  }

  /** `vTaskDelete(handle)`. */
  function DeleteTask(tasks: map<TaskId, Task>, handle: Option<TaskId>): map<TaskId, Task> {
    if handle.Some? then tasks - {handle.value} else tasks
  }

  /** `killAnimation`: delete the task if animating, free and null both
      global records whoever allocated them, clear the flag. */
  function KillAnimation(led: Led, sh: Shared): (r: Step)
    ensures !r.led.animating
    ensures r.led == led.(animating := false)
    ensures r.shared.blinkParams.None? && r.shared.breatheParams.None?
    ensures r.shared.heap.Keys == sh.heap.Keys - Pointed(sh)
    ensures forall a :: a in r.shared.heap ==> r.shared.heap[a] == sh.heap[a]
    ensures led.animating && led.animationTask.Some? ==> r.shared.tasks.Keys == sh.tasks.Keys - {led.animationTask.value}
    ensures !led.animating ==> r.shared.tasks == sh.tasks
    ensures r.shared.pwm == sh.pwm
    ensures r.shared.nextAddr == sh.nextAddr && r.shared.nextTask == sh.nextTask
    ensures Valid(sh) ==> Valid(r.shared)
  {
    var tasks := if led.animating then DeleteTask(sh.tasks, led.animationTask) else sh.tasks;
    var heap := Free(Free(sh.heap, sh.blinkParams), sh.breatheParams);
    Step(led.(animating := false),
         sh.(heap := heap, blinkParams := None, breatheParams := None, tasks := tasks))
  }

  /** The common shape of `on`, `off` and `set`: kill, then one write to
      channel 15 of `duty` converted to `uint32_t`. */
  function StaticWrite(led: Led, sh: Shared, duty: int): (r: Step)
    ensures !r.led.animating
    ensures |r.shared.pwm| == |sh.pwm| + 1 && r.shared.pwm[..|sh.pwm|] == sh.pwm
    ensures var w := r.shared.pwm[|sh.pwm|];
      w.channel == StaticChannel && 0 <= w.duty < U32 && (duty - w.duty) % U32 == 0
    ensures r.led == KillAnimation(led, sh).led
    ensures r.shared.(pwm := sh.pwm) == KillAnimation(led, sh).shared
  {
    var k := KillAnimation(led, sh);
    Step(k.led, k.shared.(pwm := k.shared.pwm + [PwmWrite(StaticChannel, ToU32(duty))]))
  }

  function On(led: Led, sh: Shared): (r: Step)
    ensures !r.led.animating
    ensures r.shared.pwm == sh.pwm + [PwmWrite(StaticChannel, FullDuty)]
    ensures r.shared.heap == KillAnimation(led, sh).shared.heap
    ensures r.shared.tasks == KillAnimation(led, sh).shared.tasks
  {
    StaticWrite(led, sh, FullDuty)
  }

  function Off(led: Led, sh: Shared): (r: Step)
    ensures !r.led.animating
    ensures r.shared.pwm == sh.pwm + [PwmWrite(StaticChannel, 0)]
    ensures r.shared.heap == KillAnimation(led, sh).shared.heap
    ensures r.shared.tasks == KillAnimation(led, sh).shared.tasks
    ensures r.shared.blinkParams.None? && r.shared.breatheParams.None?
  {
    StaticWrite(led, sh, 0)
  }

  function Set(led: Led, sh: Shared, dutyCycle: int): (r: Step)
    ensures !r.led.animating
    ensures 0 <= dutyCycle < U32 ==> r.shared.pwm == sh.pwm + [PwmWrite(StaticChannel, dutyCycle)]
    ensures r.shared.heap == KillAnimation(led, sh).shared.heap
    ensures r.shared.tasks == KillAnimation(led, sh).shared.tasks
  {
    StaticWrite(led, sh, dutyCycle)
  }

  /** `xTaskCreatePinnedToCore(loop, ..., arg, ...)` followed by
      `animating = true`: a new task with the pointer value `arg` has at the
      call, stored in the LED's handle. */
  function StartTask(led: Led, sh: Shared, routine: Routine, arg: Option<Addr>): (r: Step)
    ensures r.led.animating && r.led.animationTask == Some(sh.nextTask)
    ensures r.shared.tasks == sh.tasks[sh.nextTask := Task(routine, arg)]
  {
    var t := sh.nextTask;
    Step(led.(animating := true, animationTask := Some(t)),
         sh.(tasks := sh.tasks[t := Task(routine, arg)], nextTask := t + 1))
  }

  /** `new` of a record: the next fresh address. */
  function Alloc(sh: Shared, rec: Params): (r: (Addr, Shared))
    ensures r.0 == sh.nextAddr && r.1.heap == sh.heap[r.0 := rec]
    ensures Valid(sh) ==> r.0 !in sh.heap
  {
    (sh.nextAddr, sh.(heap := sh.heap[sh.nextAddr := rec], nextAddr := sh.nextAddr + 1))
  }

  /** `blink(delay)`: kill first, then allocate the record, publish it in
      the global pointer and start the blink task on it. */
  function Blink(led: Led, sh: Shared, delay: int): (r: Step)
    ensures r.led.animating && r.led.pin == led.pin && r.led.channel == led.channel
    ensures TaskRecord(r.led, r.shared) == Some(BlinkParams(led.pin, led.channel, delay))
    ensures r.shared.blinkParams.Some? && r.shared.tasks[r.led.animationTask.value].arg == r.shared.blinkParams
    ensures r.shared.breatheParams.None?
    ensures r.shared.pwm == sh.pwm
    ensures Valid(sh) ==> Valid(r.shared)
  {
    var k := KillAnimation(led, sh);
    var (a, s1) := Alloc(k.shared, BlinkParams(led.pin, led.channel, delay));
    var s2 := s1.(blinkParams := Some(a));
    StartTask(k.led, s2, BlinkLoop, s2.blinkParams)
  }

  /** `breathe(period)` as written: the record is allocated and published
      BEFORE the conditional kill, and the kill frees every record the
      global pointers hold, including the one just allocated, and nulls
      them.  The task is then created with the global's value at that
      moment: `nullptr` when a kill ran. */
  function Breathe(led: Led, sh: Shared, period: int): (r: Step)
    ensures r.led.animating && r.led.pin == led.pin && r.led.channel == led.channel
    ensures led.animating ==> ReadsNull(r.led, r.shared) && TaskRecord(r.led, r.shared).None?
    ensures led.animating ==> r.shared.breatheParams.None? && sh.nextAddr !in r.shared.heap
    ensures !led.animating ==> TaskRecord(r.led, r.shared) == Some(BreatheParams(led.pin, led.channel, period))
    ensures r.shared.pwm == sh.pwm
    ensures Valid(sh) ==> Valid(r.shared)
  {
    var (a, s1) := Alloc(sh, BreatheParams(led.pin, led.channel, period));
    var s2 := s1.(breatheParams := Some(a));
    var k := if led.animating then KillAnimation(led, s2) else Step(led, s2);
    StartTask(k.led, k.shared, BreatheLoop, k.shared.breatheParams)
  }

  /** `breathe(period)` as evidently intended: kill unconditionally first,
      as `blink` does, then allocate. */
  function BreatheFixed(led: Led, sh: Shared, period: int): (r: Step)
    ensures r.led.animating && r.led.pin == led.pin && r.led.channel == led.channel
    ensures TaskRecord(r.led, r.shared) == Some(BreatheParams(led.pin, led.channel, period))
    ensures !ReadsFreedRecord(r.led, r.shared) && !ReadsNull(r.led, r.shared)
    ensures r.shared.breatheParams.Some? && r.shared.tasks[r.led.animationTask.value].arg == r.shared.breatheParams
    ensures r.shared.pwm == sh.pwm
    ensures Valid(sh) ==> Valid(r.shared)
  {
    var k := KillAnimation(led, sh);
    var (a, s1) := Alloc(k.shared, BreatheParams(led.pin, led.channel, period));
    var s2 := s1.(breatheParams := Some(a));
    StartTask(k.led, s2, BreatheLoop, s2.breatheParams)
  }

  /** `on`/`off`/`set` as evidently intended: the write goes to the
      instance's own channel. */
  function StaticWriteFixed(led: Led, sh: Shared, duty: int): (r: Step)
    ensures !r.led.animating
    ensures r.shared.pwm == sh.pwm + [PwmWrite(led.channel, ToU32(duty))]
    ensures r.shared.heap == KillAnimation(led, sh).shared.heap
    ensures r.shared.tasks == KillAnimation(led, sh).shared.tasks
  {
    var k := KillAnimation(led, sh);
    Step(k.led, k.shared.(pwm := k.shared.pwm + [PwmWrite(led.channel, ToU32(duty))]))
  }

  // ---------------------------------------------------------------------
  // Properties of the controller

  /** A second `killAnimation` deletes no task, frees nothing and writes
      nothing: the operation is idempotent. */
  lemma KillIdempotent(led: Led, sh: Shared)
    ensures var k := KillAnimation(led, sh);
      KillAnimation(k.led, k.shared) == k
  {
  }

  /** `killAnimation` deletes the task handle exactly when the LED was
      animating. */
  lemma KillDeletesTaskIffAnimating(led: Led, sh: Shared)
    requires led.animationTask.Some? && led.animationTask.value in sh.tasks
    ensures var k := KillAnimation(led, sh);
      led.animationTask.value !in k.shared.tasks <==> led.animating
  {
  }

  /** With a single LED, the static operations leave no task alive. */
  lemma SoloStaticPreserved(led: Led, sh: Shared, x: int)
    requires Solo(led, sh)
    ensures Solo(KillAnimation(led, sh).led, KillAnimation(led, sh).shared)
    ensures Solo(On(led, sh).led, On(led, sh).shared) && On(led, sh).shared.tasks == map[]
    ensures Solo(Off(led, sh).led, Off(led, sh).shared) && Off(led, sh).shared.tasks == map[]
    ensures Solo(Set(led, sh, x).led, Set(led, sh, x).shared) && Set(led, sh, x).shared.tasks == map[]
  {
    var k := KillAnimation(led, sh);
    assert k.shared.tasks.Keys == {};
  }

  /** With a single LED, `blink` leaves exactly one task alive: its own. */
  lemma SoloBlink(led: Led, sh: Shared, delay: int)
    requires Solo(led, sh)
    ensures var b := Blink(led, sh, delay); Solo(b.led, b.shared) && |b.shared.tasks| == 1
  {
    var k := KillAnimation(led, sh);
    assert k.shared.tasks.Keys == {};
    var b := Blink(led, sh, delay);
    assert b.shared.tasks.Keys == {b.led.animationTask.value};
  }

  /** With a single LED, `breathe` leaves exactly one task alive: its own. */
  lemma SoloBreathe(led: Led, sh: Shared, period: int)
    requires Solo(led, sh)
    ensures var b := Breathe(led, sh, period); Solo(b.led, b.shared) && |b.shared.tasks| == 1
  {
    var b := Breathe(led, sh, period);
    if led.animating {
      var s2 := sh.(heap := sh.heap[sh.nextAddr := BreatheParams(led.pin, led.channel, period)],
                    nextAddr := sh.nextAddr + 1, breatheParams := Some(sh.nextAddr));
      assert KillAnimation(led, s2).shared.tasks.Keys == {};
    }
    assert b.shared.tasks.Keys == {b.led.animationTask.value};
  }

  /** The defect of `breathe`: called while an animation runs, its own
      record is freed by the kill before the task is created, and the task
      receives the nulled global, so its first `params->period` reads
      through `nullptr`. */
  lemma BreatheNullArgument(sh: Shared)
    ensures var led := NewLed(26, 15);
      var s1 := Blink(led, sh, 100);
      var s2 := Breathe(s1.led, s1.shared, 500);
      && ReadsNull(s2.led, s2.shared)
      && s2.shared.tasks[s2.led.animationTask.value] == Task(BreatheLoop, None)
      && s1.shared.nextAddr !in s2.shared.heap
  {
  }

  /** The corrected `breathe` and the one as written agree when nothing is
      animating and both global pointers are null, as at boot. */
  lemma BreatheFixedAgreesFromRest(led: Led, sh: Shared, period: int)
    requires !led.animating && sh.blinkParams.None? && sh.breatheParams.None?
    ensures Breathe(led, sh, period) == BreatheFixed(led, sh, period)
  {
  }

  /** The defect of the shared globals: a second LED that is not animating
      calls `off`, and the blink record of the first LED, whose task keeps
      running, is freed. */
  lemma OffFreesAnotherLedsRecord(a: Led, b: Led, sh: Shared, delay: int)
    requires !b.animating
    ensures var s1 := Blink(a, sh, delay);
      var s2 := Off(b, s1.shared);
      s1.led.animating && ReadsFreedRecord(s1.led, s2.shared)
  {
    var s1 := Blink(a, sh, delay);
    assert s1.shared.blinkParams.value in Pointed(s1.shared);
  }

  /** The defect of the hard-coded channel: an LED on channel 14 (the GPRS
      board's blue LED) writes channel 15 when turned on. */
  lemma OnIgnoresOwnChannel(sh: Shared)
    ensures var r := On(NewLed(13, 14), sh);
      r.shared.pwm[|r.shared.pwm| - 1].channel == 15 != 14
  {
  }

  /** The corrected static write reaches the LED's own channel. */
  lemma StaticWriteFixedOwnChannel(led: Led, sh: Shared, duty: int)
    ensures var r := StaticWriteFixed(led, sh, duty);
      r.shared.pwm[|r.shared.pwm| - 1].channel == led.channel
    ensures led.channel == StaticChannel ==> StaticWriteFixed(led, sh, duty) == StaticWrite(led, sh, duty)
  {
  }

  // ---------------------------------------------------------------------
  // The blink render task

  /** The delay `vTaskDelay(n / portTICK_PERIOD_MS)` actually waits, in ms:
      the request rounded down to whole ticks. */
  function WaitedMs(n: nat, tickMs: nat): (w: nat)
    requires 0 < tickMs
    ensures w <= n && n - w < tickMs
    ensures w % tickMs == 0
  {
    var q := n / tickMs;
    MulNonNegative(q, tickMs);
    DivUnique(q * tickMs, tickMs, q, 0);
    q * tickMs
  }

  /** The k-th write of the blink loop: it alternates 255 and 0, starting
      with 255, on the record's channel. */
  function BlinkWrite(p: Params, k: nat): (w: PwmWrite)
    requires p.BlinkParams?
    ensures w.channel == p.channel
    ensures w.duty == FullDuty || w.duty == 0
    ensures w.duty == FullDuty <==> k % 2 == 0
  {
    PwmWrite(p.channel, if k % 2 == 0 then FullDuty else 0)
  }

  /** Consecutive writes of the blink loop differ: the LED toggles at every
      write, starting lit. */
  lemma BlinkAlternates(p: Params, k: nat)
    requires p.BlinkParams?
    ensures BlinkWrite(p, 0).duty == FullDuty
    ensures BlinkWrite(p, k).duty != BlinkWrite(p, k + 1).duty
  {
  }

  /** The duty on the blink channel `t` ms after the task started: that of
      the latest write.  Writes are `h` ms apart, where `h` is the delay
      rounded down to whole ticks (scheduling latency is not modelled). */
  function BlinkDutyAt(p: Params, tickMs: nat, t: nat): (duty: int)
    requires p.BlinkParams? && 0 < tickMs <= p.delay
    ensures var h := WaitedMs(p.delay, tickMs);
      && 0 < h
      && (duty == FullDuty <==> t % (2 * h) < h)
      && (duty == 0 <==> t % (2 * h) >= h)
  {
    var h := WaitedMs(p.delay, tickMs);
    QuotientParity(t, h);
    BlinkWrite(p, LatestWrite(t, h)).duty
  }

  /** The index of the latest of the writes made at times 0, h, 2h, ... at
      or before time t. */
  function LatestWrite(t: nat, h: nat): (k: nat)
    requires 0 < h
    ensures k * h <= t < (k + 1) * h
  {
    t / h
  }

  /** The quotient `t / h` is even exactly when `t` falls in the first half
      of a period of length `2h`. */
  lemma QuotientParity(t: nat, h: nat)
    requires 0 < h
    ensures (t / h) % 2 == 0 <==> t % (2 * h) < h
  {
    var q := t / (2 * h);
    var r := t % (2 * h);
    assert t == q * (2 * h) + r;
    if r < h {
      DivUnique(t, h, 2 * q, r);
    } else {
      DivUnique(t, h, 2 * q + 1, r - h);
    }
  }

  /** The scenario blink(100) on a 1 ms tick: lit at 50 ms, dark at 150 ms. */
  lemma BlinkScenario()
    ensures BlinkDutyAt(BlinkParams(26, 15, 100), 1, 50) == FullDuty
    ensures BlinkDutyAt(BlinkParams(26, 15, 100), 1, 150) == 0
  {
  }
}

=== FILE: basics.dfy ===
/** Small shared vocabulary: optional values, results, octets. */
module Basics {

  /** A possibly missing value: a C null pointer, an unset environment variable. */
  datatype Option<+T> = None | Some(value: T)

  /** The outcome of an operation that can fail with an error message. */
  datatype Result<+T> = Ok(value: T) | Err(message: string)

  /** One octet, as `uint8_t` in the firmware and `byte` in Go. */
  type byte = b: int | 0 <= b < 256

  /** The width of `unsigned long` and `int` on the ESP32. */
  const U32: int := 0x1_0000_0000

  /** Conversion of a C `int` or `unsigned long` value to `unsigned long`. */
  function ToU32(x: int): (u: int)
    ensures 0 <= u < U32
    ensures (x - u) % U32 == 0
    ensures 0 <= x < U32 ==> u == x
  {
    x % U32
  }

  /** Euclidean division is determined by quotient and remainder. */
  lemma DivUnique(t: int, h: int, q: int, r: int)
    requires 0 < h && 0 <= r < h && t == q * h + r
    ensures t / h == q && t % h == r
  {
    var q', r' := t / h, t % h;
    assert (q - q') * h == r' - r;
    if q - q' >= 1 {
      MulAtLeast(q - q', h);
    } else if q' - q >= 1 {
      assert (q' - q) * h == r - r';
      MulAtLeast(q' - q, h);
    }
  }

  lemma {:induction false} MulAtLeast(d: int, h: int)
    requires 1 <= d && 0 < h
    ensures h <= d * h
    decreases d
  {
    if d > 1 {
      MulAtLeast(d - 1, h);
      assert d * h == (d - 1) * h + h;
    }
  }

  lemma MulNonNegative(a: int, b: int)
    requires 0 <= a && 0 <= b
    ensures 0 <= a * b
  {
    if a >= 1 && b >= 1 {
      MulAtLeast(a, b);
    }
  }
}

=== FILE: camera.dfy ===
/** `frameBufferToSerial` of camera-thing/main/camera.cpp: each pixel byte is
    printed as two characters of a ten-step brightness scale, a newline ends
    every row of `width` pixels, and a metadata line follows. */
module Camera {
  import opened Basics
  import opened Text

  /** The brightness scale, darkest first. */
  const Scale: string := " .:-=+*#%@"

  /** The fields of `camera_fb_t` the function reads; `len` is `|buf|`. */
  datatype FrameBuffer = FrameBuffer(buf: seq<byte>, width: nat, height: nat, format: nat)

  /** The scale position of a pixel: bands of 26 byte values, so every byte
      lands inside the ten-character scale. */
  function ScaleIndex(b: byte): (k: nat)
    ensures k < |Scale| && k <= 9
    ensures 26 * k <= b < 26 * (k + 1)
  {
    b / 26
  }

  function ScaleChar(b: byte): (c: char)
    ensures c in Scale && c != '\n'
  {
    Scale[ScaleIndex(b)]
  }

  /** A brighter byte never gets a darker character. */
  lemma ScaleMonotone(a: byte, b: byte)
    requires a <= b
    ensures ScaleIndex(a) <= ScaleIndex(b)
  {
  }

  /** What the loop prints for pixel `i`. */
  function PixelText(b: byte, i: nat, width: nat): (s: string)
    requires 0 < width
    ensures |s| == 2 + (if RowEnd(i, width) then 1 else 0)
    ensures s[0] == ScaleChar(b) && s[1] == ScaleChar(b)
    ensures RowEnd(i, width) ==> s[2] == '\n'
  {
    [ScaleChar(b), ScaleChar(b)] + (if RowEnd(i, width) then "\n" else "")
  }

  /** Pixel `i` ends a row of the image. */
  predicate RowEnd(i: nat, width: nat)
    requires 0 < width
  {
    i % width == width - 1
  }

  /** Where the text of pixel `i` starts: the lengths of the texts of the
      pixels before it. */
  function Offset(i: nat, width: nat): nat
    requires 0 < width || i == 0
  {
    if i == 0 then 0 else Offset(i - 1, width) + 2 + (if RowEnd(i - 1, width) then 1 else 0)
  }

  /** Two characters per earlier pixel and one newline per completed row. */
  lemma {:induction false} OffsetClosedForm(i: nat, width: nat)
    requires 0 < width
    ensures Offset(i, width) == 2 * i + i / width
  {
    if i > 0 {
      OffsetClosedForm(i - 1, width);
      RowStep(i - 1, width);
    }
  }

  lemma {:induction false} OffsetMonotone(i: nat, j: nat, width: nat)
    requires 0 < width && i <= j
    ensures Offset(i, width) <= Offset(j, width)
    decreases j
  {
    if i < j {
      OffsetMonotone(i, j - 1, width);
    }
  }

  /** The text printed for the first `n` pixels. */
  function RenderPixels(buf: seq<byte>, width: nat, n: nat): (s: string)
    requires (0 < width || n == 0) && n <= |buf|
    ensures |s| == Offset(n, width)
  {
    if n == 0 then ""
    else
      RenderPixels(buf, width, n - 1) + PixelText(buf[n - 1], n - 1, width)
  }

  /** Passing pixel `i` completes a row exactly when it is the last of one. */
  lemma RowStep(i: nat, width: nat)
    requires 0 < width
    ensures (i + 1) / width == i / width + (if i % width == width - 1 then 1 else 0)
  {
    var q, r := i / width, i % width;
    assert i == q * width + r;
    if r == width - 1 {
      assert i + 1 == (q + 1) * width;
      DivUnique(i + 1, width, q + 1, 0);
    } else {
      assert i + 1 == q * width + (r + 1);
      DivUnique(i + 1, width, q, r + 1);
    }
  }

  /** The metadata line printed after the pixels. */
  function Metadata(fb: FrameBuffer): (s: string)
    ensures 0 < |s| && s[0] == 'W'
  {
    "Width: " + Decimal(fb.width) + ", Height: " + Decimal(fb.height)
      + ", Len: " + Decimal(|fb.buf|) + ", Format: " + Decimal(fb.format) + "\n"
  }

  /** Everything `frameBufferToSerial` prints.  The row test `i % width`
      runs once per pixel, so a zero width is defined only for an empty
      buffer, which prints the metadata line alone. */
  function FrameBufferToSerial(fb: FrameBuffer): (out: string)
    requires 0 < fb.width || |fb.buf| == 0
    ensures |out| == Offset(|fb.buf|, fb.width) + |Metadata(fb)|
    ensures out[Offset(|fb.buf|, fb.width)..] == Metadata(fb)
  {
    RenderPixels(fb.buf, fb.width, |fb.buf|) + Metadata(fb)
  }

  /** Before the metadata line come two characters per pixel and one
      newline per completed row. */
  lemma SerialLength(fb: FrameBuffer)
    requires 0 < fb.width
    ensures |FrameBufferToSerial(fb)| == 2 * |fb.buf| + |fb.buf| / fb.width + |Metadata(fb)|
  {
    OffsetClosedForm(|fb.buf|, fb.width);
  }

  /** An empty frame prints only its metadata line, whatever its width. */
  lemma EmptyFrameMetadataOnly(fb: FrameBuffer)
    requires |fb.buf| == 0
    ensures FrameBufferToSerial(fb) == Metadata(fb)
  {
  }

  /** Printing more pixels only extends what was printed. */
  lemma {:induction false} RenderPrefix(buf: seq<byte>, width: nat, n: nat, m: nat)
    requires 0 < width && n <= m <= |buf|
    ensures RenderPixels(buf, width, n) <= RenderPixels(buf, width, m)
    decreases m
  {
    if n < m {
      RenderPrefix(buf, width, n, m - 1);
      var p := RenderPixels(buf, width, m - 1);
      assert RenderPixels(buf, width, m) == p + PixelText(buf[m - 1], m - 1, width);
      OffsetMonotone(n, m - 1, width);
    }
  }

  /** Character `j` of the text of pixel `i` sits at `Offset(i) + j` in
      whatever is printed once pixel `i` is. */
  lemma {:induction false} PixelCharAt(buf: seq<byte>, width: nat, n: nat, i: nat, j: nat)
    requires 0 < width && i < n <= |buf|
    requires j < |PixelText(buf[i], i, width)|
    ensures Offset(i, width) + j < |RenderPixels(buf, width, n)|
    ensures RenderPixels(buf, width, n)[Offset(i, width) + j] == PixelText(buf[i], i, width)[j]
    decreases n
  {
    var p := RenderPixels(buf, width, n - 1);
    assert RenderPixels(buf, width, n) == p + PixelText(buf[n - 1], n - 1, width);
    if i < n - 1 {
      PixelCharAt(buf, width, n - 1, i, j);
    }
  }

  /** Each pixel prints its scale character twice, at its offset; the
      character after the pair is a newline exactly when the pixel ends a row. */
  lemma PixelPlacement(buf: seq<byte>, width: nat, n: nat, i: nat)
    requires 0 < width && i < n <= |buf|
    ensures var s := RenderPixels(buf, width, n);
      && Offset(i, width) + 1 < |s|
      && s[Offset(i, width)] == ScaleChar(buf[i])
      && s[Offset(i, width) + 1] == ScaleChar(buf[i])
      && (RowEnd(i, width) ==> Offset(i, width) + 2 < |s| && s[Offset(i, width) + 2] == '\n')
      && (!RowEnd(i, width) && i + 1 < n ==> Offset(i, width) + 2 < |s| && s[Offset(i, width) + 2] == ScaleChar(buf[i + 1]))
  {
    var t := PixelText(buf[i], i, width);
    PixelCharAt(buf, width, n, i, 0);
    PixelCharAt(buf, width, n, i, 1);
    if RowEnd(i, width) {
      PixelCharAt(buf, width, n, i, 2);
    } else if i + 1 < n {
      PixelCharAt(buf, width, n, i + 1, 0);
      assert Offset(i + 1, width) == Offset(i, width) + 2;
    }
  }

  /** In the full output, a newline follows the pair of pixel `i` if and
      only if `i % width == width - 1`. */
  lemma NewlineAfterPixel(fb: FrameBuffer, i: nat)
    requires 0 < fb.width && i < |fb.buf|
    ensures var out := FrameBufferToSerial(fb);
      && Offset(i, fb.width) + 2 < |out|
      && (out[Offset(i, fb.width) + 2] == '\n' <==> i % fb.width == fb.width - 1)
  {
    var pixels := RenderPixels(fb.buf, fb.width, |fb.buf|);
    NewlineBeforeLine(fb.buf, fb.width, pixels, Metadata(fb), FrameBufferToSerial(fb), i);
  }

  /** The same, for the pixel text followed by any line that does not
      start with a newline. */
  lemma NewlineBeforeLine(buf: seq<byte>, width: nat, pixels: string, meta: string, out: string, i: nat)
    requires 0 < width && i < |buf| && 0 < |meta| && meta[0] != '\n'
    requires pixels == RenderPixels(buf, width, |buf|) && out == pixels + meta
    ensures Offset(i, width) + 2 < |out|
    ensures out[Offset(i, width) + 2] == '\n' <==> RowEnd(i, width)
  {
    var o := Offset(i, width);
    var n := |buf|;
    PixelPlacement(buf, width, n, i);
    if RowEnd(i, width) {
      CharOfJoin(pixels, meta, out, o + 2);
    } else if i + 1 == n {
      assert Offset(i + 1, width) == o + 2;
      CharOfJoin(pixels, meta, out, o + 2);
    } else {
      var next := ScaleChar(buf[i + 1]);
      assert pixels[o + 2] == next;
      CharOfJoin(pixels, meta, out, o + 2);
    }
  }

  /** Indexing into the pixel text followed by the metadata line. */
  lemma CharOfJoin(pixels: string, meta: string, out: string, j: nat)
    requires out == pixels + meta && j <= |pixels| && 0 < |meta|
    ensures j < |out|
    ensures out[j] == if j < |pixels| then pixels[j] else meta[0]
  { }
}

=== FILE: main_loop.dfy ===
/** The control step of camera-thing/main/main.cpp: `setup` brackets the
    hardware set-up with an LED animation, and each `loop` samples the button,
    fires the capture block on a press edge and occasionally pauses.

    The button is active low: a sample of `true` below means the pin read LOW,
    that is, pressed.  The capture block's LED calls are returned as a script
    of commands; `ExecScript` runs such a script on the AsyncLed model, with
    `throb` (not part of that controller) supplied by the caller. */
module MainLoop {
  import opened Basics
  import AsyncLed

  /** The LED calls `main.cpp` makes. */
  datatype LedCommand = On | Off | Throb(attack: int, decay: int) | Breathe(period: int)

  /** The LED calls of the capture block, in order. */
  const CaptureScript: seq<LedCommand> := [On, Off, Throb(900, 100), Off]

  /** The LED calls of `setup`, in order. */
  const SetupScript: seq<LedCommand> := [Breathe(500), Off]

  /** `loop` pauses for 10 ms once every this many calls. */
  const YieldEvery: nat := 100000

  const PressedLog: string := "[LOOP] - Button is pressed! Taking a picture..."
  const ReleasedLog: string := "[LOOP] - Button is no longer pressed!"

  /** The globals `buttonDown` and `loopN`. */
  datatype LoopState = LoopState(buttonDown: bool, loopN: int)

  const Initial: LoopState := LoopState(false, 0)

  /** What one call of `loop` does: the new globals, the log line it printed,
      the LED calls it made, whether it ran the capture block and whether it
      yielded. */
  datatype LoopOutput = LoopOutput(
    state: LoopState,
    log: Option<string>,
    led: seq<LedCommand>,
    captured: bool,
    yielded: bool)

  /** One call of `loop` with the pin sample `pressed` (pin read LOW). */
  function LoopStep(s: LoopState, pressed: bool): (r: LoopOutput)
    ensures r.state.buttonDown == pressed
    ensures r.captured <==> !s.buttonDown && pressed
    ensures r.log.Some? <==> s.buttonDown != pressed
    ensures r.log.Some? ==> r.log.value == (if pressed then PressedLog else ReleasedLog)
    ensures r.led == (if r.captured then CaptureScript else [])
    ensures r.state.loopN == s.loopN + 1
    ensures r.yielded <==> s.loopN % YieldEvery == 0
  {
    var prev := s.buttonDown;
    var log := if prev != pressed then Some(if pressed then PressedLog else ReleasedLog) else None;
    var captured := !prev && pressed;
    LoopOutput(LoopState(pressed, s.loopN + 1), log,
               if captured then CaptureScript else [], captured, s.loopN % YieldEvery == 0)
  }

  /** The sample before position `i`, `prev` standing before the first. */
  function Before(prev: bool, samples: seq<bool>, i: nat): bool
    requires i <= |samples|
  {
    if i == 0 then prev else samples[i - 1]
  }

  /** The number of false-to-true transitions in `samples`, read after `prev`. */
  function RisingEdges(prev: bool, samples: seq<bool>): nat
  {
    if |samples| == 0 then 0
    else
      var n := |samples| - 1;
      RisingEdges(prev, samples[..n]) + (if !Before(prev, samples, n) && samples[n] then 1 else 0)
  }

  /** The number of changes of value in `samples`, read after `prev`. */
  function Changes(prev: bool, samples: seq<bool>): nat
  {
    if |samples| == 0 then 0
    else
      var n := |samples| - 1;
      Changes(prev, samples[..n]) + (if Before(prev, samples, n) != samples[n] then 1 else 0)
  }

  /** Runs `loop` once per sample from the initial globals and counts what
      happened. */
  method RunLoop(samples: seq<bool>) returns (final: LoopState, captures: nat, logs: nat, pauses: nat)
    ensures final.buttonDown == Before(false, samples, |samples|)
    ensures final.loopN == |samples|
    ensures captures == RisingEdges(false, samples)
    ensures logs == Changes(false, samples)
    ensures pauses == (|samples| + YieldEvery - 1) / YieldEvery
  {
    final := Initial;
    captures, logs, pauses := 0, 0, 0;
    var i := 0;
    while i < |samples|
      invariant 0 <= i <= |samples|
      invariant final.buttonDown == Before(false, samples, i)
      invariant final.loopN == i
      invariant captures == RisingEdges(false, samples[..i])
      invariant logs == Changes(false, samples[..i])
      invariant pauses == (i + YieldEvery - 1) / YieldEvery
    {
      var out := LoopStep(final, samples[i]);
      assert samples[..i + 1][..i] == samples[..i];
      if out.captured {
        captures := captures + 1;
      }
      if out.log.Some? {
        logs := logs + 1;
      }
      if out.yielded {
        pauses := pauses + 1;
      }
      CeilingStep(i);
      final := out.state;
      i := i + 1;
    }
    assert samples[..i] == samples;
  }

  /** The count of multiples of `YieldEvery` below `i` grows by one exactly
      when `i` itself is a multiple. */
  lemma CeilingStep(i: nat)
    ensures (i + 1 + YieldEvery - 1) / YieldEvery
         == (i + YieldEvery - 1) / YieldEvery + (if i % YieldEvery == 0 then 1 else 0)
  {
    var q, r := i / YieldEvery, i % YieldEvery;
    assert i == q * YieldEvery + r;
    if r == 0 {
      assert (i + YieldEvery - 1) / YieldEvery == q;
      assert (i + YieldEvery) / YieldEvery == q + 1;
    } else {
      assert (i + YieldEvery - 1) / YieldEvery == q + 1;
      assert (i + YieldEvery) / YieldEvery == q + 1;
    }
  }

  /** Holding the button down across any number of loops fires the capture
      block once. */
  lemma {:induction false} HoldFiresOnce(samples: seq<bool>)
    requires 0 < |samples|
    requires forall i :: 0 <= i < |samples| ==> samples[i]
    ensures RisingEdges(false, samples) == 1
  {
    var n := |samples| - 1;
    if n > 0 {
      HoldFiresOnce(samples[..n]);
    }
  }

  /** Presses and releases alternate: twice the number of presses is the
      number of changes, plus one while the button is still down. */
  lemma {:induction false} EdgesAlternate(samples: seq<bool>)
    ensures 2 * RisingEdges(false, samples)
         == Changes(false, samples) + (if Before(false, samples, |samples|) then 1 else 0)
  {
    if |samples| > 0 {
      var n := |samples| - 1;
      EdgesAlternate(samples[..n]);
      assert Before(false, samples[..n], n) == Before(false, samples, n);
    }
  }

  /** Runs one LED command on the controller model, with `breathe` in its
      corrected form; `throb` stands for the animation the controller of
      this revision does not define.  `on` and `off` keep the hard-coded
      channel, which is the LED's own on this board. */
  function Exec(cmd: LedCommand, st: AsyncLed.Step,
                throb: (AsyncLed.Step, int, int) -> AsyncLed.Step): AsyncLed.Step
  {
    match cmd
    case On => AsyncLed.On(st.led, st.shared)
    case Off => AsyncLed.Off(st.led, st.shared)
    case Throb(a, d) => throb(st, a, d)
    case Breathe(p) => AsyncLed.BreatheFixed(st.led, st.shared, p)
  }

  function ExecScript(script: seq<LedCommand>, st: AsyncLed.Step,
                      throb: (AsyncLed.Step, int, int) -> AsyncLed.Step): AsyncLed.Step
  {
    if |script| == 0 then st else ExecScript(script[1..], Exec(script[0], st, throb), throb)
  }

  /** A script whose last command is `Off` leaves the LED not animating, both
      global records released and the last write 0 on channel 15, whatever
      the earlier commands did. */
  lemma {:induction false} ScriptEndingOffLeavesLedOff(script: seq<LedCommand>, st: AsyncLed.Step,
                                                     throb: (AsyncLed.Step, int, int) -> AsyncLed.Step)
    requires 0 < |script| && script[|script| - 1] == Off
    ensures var r := ExecScript(script, st, throb);
      && !r.led.animating
      && r.shared.blinkParams.None? && r.shared.breatheParams.None?
      && 0 < |r.shared.pwm| && r.shared.pwm[|r.shared.pwm| - 1] == AsyncLed.PwmWrite(AsyncLed.StaticChannel, 0)
  {
    if |script| > 1 {
      ScriptEndingOffLeavesLedOff(script[1..], Exec(script[0], st, throb), throb);
    }
  }

  /** The capture block always ends with the LED off. */
  lemma CaptureEndsOff(st: AsyncLed.Step, throb: (AsyncLed.Step, int, int) -> AsyncLed.Step)
    ensures CaptureScript[0] == On && CaptureScript[2] == Throb(900, 100)
    ensures var r := ExecScript(CaptureScript, st, throb);
      !r.led.animating && 0 < |r.shared.pwm| && r.shared.pwm[|r.shared.pwm| - 1] == AsyncLed.PwmWrite(15, 0)
  {
    ScriptEndingOffLeavesLedOff(CaptureScript, st, throb);
  }

  /** `setup` on the board's LED (pin 26, channel 15) from power-on: breathe
      while the GPS and camera are set up, then off.  The breathe record is
      live while its task runs (the original `breathe` and the corrected
      one agree from power-on), and at the end no task, no record and no
      pointer remains and the only controller write is 0. */
  lemma SetupBracketing()
    ensures SetupScript[0] == Breathe(500) && SetupScript[|SetupScript| - 1] == Off
    ensures var led := AsyncLed.NewLed(26, 15);
      var b := AsyncLed.Breathe(led, AsyncLed.Boot, 500);
      && AsyncLed.TaskRecord(b.led, b.shared) == Some(AsyncLed.BreatheParams(26, 15, 500))
      && var r := ExecScript(SetupScript, AsyncLed.Step(led, AsyncLed.Boot), (st, a, d) => st);
      && !r.led.animating
      && r.shared.tasks == map[] && r.shared.heap == map[]
      && r.shared.blinkParams.None? && r.shared.breatheParams.None?
      && r.shared.pwm == [AsyncLed.PwmWrite(15, 0)]
  {
    var led := AsyncLed.NewLed(26, 15);
    var b := AsyncLed.Breathe(led, AsyncLed.Boot, 500);
    AsyncLed.BreatheFixedAgreesFromRest(led, AsyncLed.Boot, 500);
    assert b.shared.tasks.Keys == {0};
    assert b.shared.heap.Keys == {0};
    var r := AsyncLed.Off(b.led, b.shared);
    assert r.shared.tasks.Keys == {};
    assert r.shared.heap.Keys == {};
  }
}

=== FILE: service_config.dfy ===
/** The start-up decisions of the tweeter service: which auth token the
    `/tweet` endpoint demands (tweeter/tweetEndpoint.go), whether a
    recogniser endpoint is configured (tweeter/recogniser.go) and which kind
    of tweeter is built (tweeter/tweeter.go).

    An environment variable is `Some(value)` when set and `None` when not;
    `env` is the service's `Environment` value. */
module ServiceConfig {
  import opened Basics

  const Dev: string := "DEV"
  const Prod: string := "PROD"

  const DevToken: string := "dev"
  const TokenNotSet: string := "TWEET_AUTH_TOKEN not set"

  /** `newTweetEndpoint`: the token the endpoint will demand. */
  function NewTweetEndpoint(tokenVar: Option<string>, env: string): (r: Result<string>)
    ensures r.Err? <==> tokenVar.None? && env == Prod
    ensures r.Err? ==> r.message == TokenNotSet
    ensures tokenVar.Some? ==> r == Ok(tokenVar.value)
    ensures tokenVar.None? && env == Dev ==> r == Ok(DevToken)
    ensures tokenVar.None? && env != Dev && env != Prod ==> r == Ok("")
  {
    if tokenVar.None? && env == Dev then Ok(DevToken)
    else if tokenVar.None? && env == Prod then Err(TokenNotSet)
    else Ok(if tokenVar.Some? then tokenVar.value else "")
  }

  /** Outside DEV and PROD an unset variable gives the empty token, which a
      request without an `auth` field matches (a missing form value reads
      as ""). */
  lemma UnsetTokenOutsideDevAndProd(env: string)
    requires env != Dev && env != Prod
    ensures NewTweetEndpoint(None, env) == Ok("")
  {
  }

  const DefaultRecogniser: string := "http://imagerec:8080/recognize"
  const EndpointNotSet: string := "RECOGNISER_ENDPOINT not set"

  /** `newRecogniser` as written: the default is taken when the variable is
      unset in DEV, and every other case, a set variable included, errs. */
  function NewRecogniser(endpointVar: Option<string>, env: string): (r: Result<string>)
    ensures r.Ok? <==> endpointVar.None? && env == Dev
    ensures r.Ok? ==> r.value == DefaultRecogniser
  {
    if endpointVar.None? && env == Dev then Ok(DefaultRecogniser) else Err(EndpointNotSet)
  }

  /** A configured recogniser endpoint is never used: the service refuses to
      start with it. */
  lemma RecogniserRejectsSetEndpoint(endpoint: string, env: string)
    ensures NewRecogniser(Some(endpoint), env) == Err(EndpointNotSet)
  {
  }

  /** `newRecogniser` as its comments describe it: a set variable is used,
      the default stands in when it is unset in DEV, and only an unset
      variable outside DEV errs. */
  function NewRecogniserFixed(endpointVar: Option<string>, env: string): (r: Result<string>)
    ensures endpointVar.Some? ==> r == Ok(endpointVar.value)
    ensures endpointVar.None? ==> r == NewRecogniser(endpointVar, env)
  {
    if endpointVar.Some? then Ok(endpointVar.value)
    else if env == Dev then Ok(DefaultRecogniser)
    else Err(EndpointNotSet)
  }

  /** The corrected constructor errs exactly when the variable is unset
      outside DEV, and agrees with the original wherever the original
      succeeds. */
  lemma RecogniserFixedAgrees(endpointVar: Option<string>, env: string)
    ensures NewRecogniserFixed(endpointVar, env).Err? <==> endpointVar.None? && env != Dev
    ensures NewRecogniser(endpointVar, env).Ok? ==> NewRecogniserFixed(endpointVar, env) == NewRecogniser(endpointVar, env)
  {
  }

  /** The tweeter the service builds: with a Twitter client and the verified
      account's name, or the DEV stand-in that only logs. */
  datatype TweeterKind = Client(username: string) | LogOnly(username: string)

  const CredsIncomplete: string := "TWITTER_ environment variables incomplete"
  const CredsRejected: string := "Failed to verify twitter credentials"

  /** `newTweeter`: `credsSet` says whether all four `TWITTER_` variables
      are set; `verify` is what verifying them with Twitter returns (the
      account name, or a failure). */
  function NewTweeter(credsSet: bool, env: string, verify: Result<string>): (r: Result<TweeterKind>)
    ensures r.Ok? && r.value.LogOnly? <==> !credsSet && env == Dev
    ensures r.Ok? && r.value.LogOnly? ==> r.value.username == "Dev"
    ensures !credsSet && env != Dev ==> r == Err(CredsIncomplete)
    ensures credsSet ==> (r.Ok? <==> verify.Ok?)
    ensures credsSet && verify.Ok? ==> r == Ok(Client(verify.value))
    ensures credsSet && verify.Err? ==> r == Err(CredsRejected)
  {
    if !credsSet && env != Dev then Err(CredsIncomplete)
    else if !credsSet && env == Dev then Ok(LogOnly("Dev"))
    else if verify.Err? then Err(CredsRejected)
    else Ok(Client(verify.value))
  }
}

=== FILE: text.dfy ===
/** Text helpers shared by the firmware and the service: decimal numerals
    (Arduino `String(n)`, `printf("%d")`) and the split performed by repeated
    `Stream::readStringUntil`. */
module Text {
  import opened Basics

  predicate IsDigit(c: char) {
    '0' <= c <= '9'
  }

  function DigitChar(d: int): (c: char)
    requires 0 <= d < 10
    ensures IsDigit(c)
  {
    ['0', '1', '2', '3', '4', '5', '6', '7', '8', '9'][d]
  }

  function DigitValue(c: char): (d: int)
    requires IsDigit(c)
    ensures 0 <= d < 10
    ensures DigitChar(d) == c
  {
    c as int - '0' as int
  }

  predicate AllDigits(s: string) {
    forall i :: 0 <= i < |s| ==> IsDigit(s[i])
  }

  /** The decimal numeral of `n`, most significant digit first, no sign,
      no leading zeros. */
  function Decimal(n: nat): (s: string)
    ensures 0 < |s|
    ensures AllDigits(s)
    ensures s[0] == '0' ==> n == 0
    decreases n
  {
    if n < 10 then [DigitChar(n)] else Decimal(n / 10) + [DigitChar(n % 10)]
  }

  /** The value of a string of decimal digits (the empty string reads as 0). */
  function DigitsValue(s: string): nat
    requires AllDigits(s)
  {
    if |s| == 0 then 0 else DigitsValue(s[..|s| - 1]) * 10 + DigitValue(s[|s| - 1])
  }

  /** Parses a canonical decimal numeral: non-empty, digits only, and no
      leading zero unless it is "0". */
  function ParseDecimal(s: string): (r: Option<nat>)
    ensures r.Some? ==> AllDigits(s) && 0 < |s|
  {
    if 0 < |s| && AllDigits(s) && (s[0] != '0' || |s| == 1) then Some(DigitsValue(s)) else None
  }

  /** Reading back a numeral produced by `Decimal` gives the number. */
  lemma {:induction false} DecimalRoundTrip(n: nat)
    ensures ParseDecimal(Decimal(n)) == Some(n)
  {
    DecimalValue(n);
  }

  lemma {:induction false} DecimalValue(n: nat)
    ensures DigitsValue(Decimal(n)) == n
    decreases n
  {
    if n >= 10 {
      var s := Decimal(n);
      assert s[..|s| - 1] == Decimal(n / 10);
      DecimalValue(n / 10);
    }
  }

  /** Distinct numbers have distinct numerals. */
  lemma DecimalInjective(m: nat, n: nat)
    requires Decimal(m) == Decimal(n)
    ensures m == n
  {
    DecimalRoundTrip(m);
    DecimalRoundTrip(n);
  }

  /** The index of the first `sep` in `s`, or `|s|` when there is none. */
  function IndexOf(s: string, sep: char): (i: nat)
    ensures i <= |s|
    ensures i < |s| ==> s[i] == sep
    ensures forall j :: 0 <= j < i ==> s[j] != sep
  {
    if |s| == 0 then 0 else if s[0] == sep then 0 else 1 + IndexOf(s[1..], sep)
  }

  /** The strings returned by calling `readStringUntil(sep)` while input
      remains: each call consumes up to and including the next `sep` and
      returns what came before it; a final piece without `sep` is returned
      as it is; nothing is returned for an exhausted input. */
  function Segments(s: string, sep: char): (r: seq<string>)
    ensures |s| == 0 <==> |r| == 0
    ensures forall k :: 0 <= k < |r| ==> sep !in r[k]
    decreases |s|
  {
    if |s| == 0 then []
    else
      var i := IndexOf(s, sep);
      if i == |s| then [s] else [s[..i]] + Segments(s[i + 1..], sep)
  }

  /** A piece without `sep` followed by `sep` is split off as one segment. */
  lemma SegmentsCons(a: string, sep: char, rest: string)
    requires sep !in a
    ensures Segments(a + [sep] + rest, sep) == [a] + Segments(rest, sep)
  {
    var s := a + [sep] + rest;
    assert s[|a|] == sep;
    assert forall j :: 0 <= j < |a| ==> s[j] == a[j];
    var i := IndexOf(s, sep);
    assert i == |a|;
    assert s[..i] == a;
    assert s[i + 1..] == rest;
  }

  /** The same step with the concatenation and the rest's segments given. */
  lemma SegmentsPrepend(whole: string, a: string, sep: char, rest: string, pieces: seq<string>)
    requires whole == a + [sep] + rest
    requires sep !in a && Segments(rest, sep) == pieces
    ensures Segments(whole, sep) == [a] + pieces
  {
    SegmentsCons(a, sep, rest);
  }

  /** A non-empty string without `sep` is one segment. */
  lemma SegmentsSingle(a: string, sep: char)
    requires sep !in a && 0 < |a|
    ensures Segments(a, sep) == [a]
  {
    assert IndexOf(a, sep) == |a|;
  }
}

=== FILE: tweet_endpoint.dfy ===
/** The `/tweet` handler of tweeter/tweetEndpoint.go: the auth gate, the
    coordinate rules, the tweet text and the reply.

    Form values are strings ("" when absent); the image is `None` when the
    form holds no readable `image` file.  Float parsing, the recogniser,
    JPEG decoding, upscaling, the Twitter call and `%.5f` formatting are
    the fields of `Services`. */
module TweetEndpoint {
  import opened Basics
  import ServiceConfig

  // ------------------------------------------------------------ title case

  /** Go's `isSeparator`: ASCII other than letters, digits and `_`, and the
      Unicode white space outside ASCII (letters and digits outside ASCII
      are not spaces, so they are never separators). */
  predicate IsSeparator(c: char) {
    var n := c as int;
    if n <= 0x7F then
      !('0' <= c <= '9' || 'a' <= c <= 'z' || 'A' <= c <= 'Z' || c == '_')
    else
      n == 0x85 || n == 0xA0 || n == 0x1680 || (0x2000 <= n <= 0x200A)
      || n == 0x2028 || n == 0x2029 || n == 0x202F || n == 0x205F || n == 0x3000
  }

  /** `unicode.ToTitle` on ASCII: lower-case letters become capitals. */
  function ToTitle(c: char): (t: char)
    ensures 'a' <= c <= 'z' ==> 'A' <= t <= 'Z' && t as int == c as int - 32
    ensures !('a' <= c <= 'z') ==> t == c
  {
    if 'a' <= c <= 'z' then (c as int - 32) as char else c
  }

  /** The rune before position `i`, a space standing before the first. */
  function Prev(s: string, i: nat): char
    requires i < |s|
  {
    if i == 0 then ' ' else s[i - 1]
  }

  /** `strings.Title`: `prev` holds the previous rune of the input, a space
      at the start; a rune that follows a separator is title-cased. */
  function TitleFrom(prev: char, s: string): (t: string)
    ensures |t| == |s|
    decreases |s|
  {
    if |s| == 0 then ""
    else [if IsSeparator(prev) then ToTitle(s[0]) else s[0]] + TitleFrom(s[0], s[1..])
  }

  function Title(s: string): (t: string)
    ensures |t| == |s|
  {
    TitleFrom(' ', s)
  }

  /** Position by position: a rune is title-cased exactly when the rune
      before it in the input is a separator. */
  lemma {:induction false} TitleFromAt(prev: char, s: string, i: nat)
    requires i < |s|
    ensures TitleFrom(prev, s)[i] == if IsSeparator(if i == 0 then prev else s[i - 1]) then ToTitle(s[i]) else s[i]
    decreases i
  {
    if 0 < i {
      TitleFromAt(s[0], s[1..], i - 1);
      assert (if i - 1 == 0 then s[0] else s[1..][i - 2]) == s[i - 1];
    }
  }

  lemma TitleAt(s: string, i: nat)
    requires i < |s|
    ensures Title(s)[i] == if IsSeparator(Prev(s, i)) then ToTitle(s[i]) else s[i]
  {
    TitleFromAt(' ', s, i);
  }

  /** Title-casing keeps a rune a separator or a non-separator. */
  lemma ToTitleKeepsSeparators(c: char)
    ensures IsSeparator(ToTitle(c)) == IsSeparator(c)
    ensures ToTitle(ToTitle(c)) == ToTitle(c)
  {
  }

  /** A second pass, started from a rune of the same kind, changes nothing. */
  lemma {:induction false} TitleFromIdempotent(p: char, q: char, s: string)
    requires IsSeparator(p) == IsSeparator(q)
    ensures TitleFrom(q, TitleFrom(p, s)) == TitleFrom(p, s)
    decreases |s|
  {
    if 0 < |s| {
      var t := TitleFrom(p, s);
      ToTitleKeepsSeparators(s[0]);
      TitleFromIdempotent(s[0], t[0], s[1..]);
      assert t[1..] == TitleFrom(s[0], s[1..]);
    }
  }

  /** Title-casing twice is title-casing once. */
  lemma TitleIdempotent(s: string)
    ensures Title(Title(s)) == Title(s)
  {
    TitleFromIdempotent(' ', ' ', s);
  }

  /** After title-casing, no word of the string starts with a lower-case
      ASCII letter, and every rune that does not start a word is kept. */
  lemma TitleCapitalisesWords(s: string, i: nat)
    requires i < |s|
    ensures IsSeparator(Prev(s, i)) ==> !('a' <= Title(s)[i] <= 'z')
    ensures !IsSeparator(Prev(s, i)) ==> Title(s)[i] == s[i]
  {
    TitleAt(s, i);
  }

  // ------------------------------------------------------------ tweet text

  /** At most this many labels make it into a tweet. */
  const MaxLabels: nat := 5
  const NoIdea: string := "I have no idea. "

  function Min(a: nat, b: nat): nat {
    if a <= b then a else b
  }

  /** Each label title-cased and followed by "? ", in order. */
  function LabelText(labels: seq<string>): (t: string)
    ensures |t| >= 2 * |labels|
    ensures |t| == 0 <==> |labels| == 0
  {
    if |labels| == 0 then ""
    else LabelText(labels[..|labels| - 1]) + Title(labels[|labels| - 1]) + "? "
  }

  /** The tweet text for the recogniser's answer and the coordinates:
      up to five labels, the fallback sentence when there are none, and the
      "(lat,long)" suffix when both coordinates are present. */
  function TweetText(labels: Result<seq<string>>, lat: Option<real>, long: Option<real>,
                     coord: real -> string): (t: string)
    ensures 0 < |t|
  {
    var base := if labels.Ok? then LabelText(labels.value[..Min(MaxLabels, |labels.value|)]) else "";
    var body := if |base| == 0 then NoIdea else base;
    if lat.Some? && long.Some? then body + "(" + coord(lat.value) + "," + coord(long.value) + ")" else body
  }

  /** The loop of the handler that assembles the tweet text. */
  method BuildTweetText(labels: Result<seq<string>>, lat: Option<real>, long: Option<real>,
                        coord: real -> string) returns (tweetBody: string)
    ensures tweetBody == TweetText(labels, lat, long, coord)
  {
    tweetBody := "";
    if labels.Ok? {
      var ls := labels.value;
      var i := 0;
      while i < MaxLabels && i < |ls|
        invariant 0 <= i <= Min(MaxLabels, |ls|)
        invariant tweetBody == LabelText(ls[..i])
      {
        assert ls[..i + 1][..i] == ls[..i];
        tweetBody := tweetBody + Title(ls[i]) + "? ";
        i := i + 1;
      }
    }
    if |tweetBody| == 0 {
      tweetBody := NoIdea;
    }
    if lat.Some? && long.Some? {
      tweetBody := tweetBody + "(" + coord(lat.value) + "," + coord(long.value) + ")";
    }
  }

  /** Labels after the fifth never reach the tweet. */
  lemma LabelsBeyondFiveIgnored(ls: seq<string>, extra: seq<string>, lat: Option<real>, long: Option<real>,
                                coord: real -> string)
    requires MaxLabels <= |ls|
    ensures TweetText(Ok(ls + extra), lat, long, coord) == TweetText(Ok(ls), lat, long, coord)
  {
    assert (ls + extra)[..MaxLabels] == ls[..MaxLabels];
  }

  /** A failed recognition reads like a recognition that found nothing: the
      tweet starts with the fallback sentence. */
  lemma FailureLikeNoLabels(err: string, lat: Option<real>, long: Option<real>, coord: real -> string)
    ensures TweetText(Err(err), lat, long, coord) == TweetText(Ok([]), lat, long, coord)
    ensures NoIdea <= TweetText(Err(err), lat, long, coord)
  {
  }

  /** With labels, the tweet starts with the first label title-cased and a
      question mark; the coordinates come last exactly when both are given. */
  lemma TweetTextShape(ls: seq<string>, lat: Option<real>, long: Option<real>, coord: real -> string)
    requires 0 < |ls|
    ensures var t := TweetText(Ok(ls), lat, long, coord);
      && Title(ls[0]) + "? " <= t
      && (lat.Some? && long.Some? <==> t[|t| - 1] == ')')
  {
    var k := Min(MaxLabels, |ls|);
    LabelTextStarts(ls[..k]);
    assert ls[..k][0] == ls[0];
    var base := LabelText(ls[..k]);
    assert base[|base| - 1] == ' ';
  }

  lemma {:induction false} LabelTextStarts(ls: seq<string>)
    requires 0 < |ls|
    ensures Title(ls[0]) + "? " <= LabelText(ls)
    ensures var t := LabelText(ls); t[|t| - 1] == ' '
  {
    var init := ls[..|ls| - 1];
    var piece := Title(ls[|ls| - 1]) + "? ";
    assert LabelText(ls) == LabelText(init) + piece;
    if 1 < |ls| {
      LabelTextStarts(init);
      assert init[0] == ls[0];
      PrefixExtends(Title(ls[0]) + "? ", LabelText(init), piece);
    } else {
      assert LabelText(init) == "";
    }
  }

  lemma PrefixExtends(a: string, b: string, c: string)
    requires a <= b
    ensures a <= b + c
  {
    assert (b + c)[..|a|] == b[..|a|];
  }

  // ------------------------------------------------------------ the handler

  /** The fields of the multipart form the handler reads. */
  datatype Form = Form(auth: string, lat: string, long: string, image: Option<seq<byte>>)

  /** The tweet object Twitter returns. */
  datatype TweetObject = TweetObject(screenName: string, idStr: string)

  /** What the handler calls out to. */
  datatype Services = Services(
    parseFloat: string -> Option<real>,
    recognise: seq<byte> -> Result<seq<string>>,
    decodes: seq<byte> -> bool,
    upscale: seq<byte> -> Option<seq<byte>>,
    tweet: (string, seq<byte>) -> Result<Option<TweetObject>>,
    coord: real -> string)

  /** The JSON payload: a message string, or the tweet and its URL. */
  datatype Payload = Message(text: string) | Tweeted(tweet: string, url: Option<string>)

  /** The reply, whether the recogniser was asked and which text (if any)
      was handed to Twitter. */
  datatype Handled = Handled(status: nat, payload: Payload, recognised: bool, posted: Option<string>)

  const InvalidAuth: string := "Invalid auth token"
  const LatOutOfRange: string := "Latitude out of range (min -180, max 180)"
  const LongOutOfRange: string := "Longitude out of range (min -90, max 90)"
  const NeedBoth: string := "Longitude and latitude must be provided, or neither"
  const NoImage: string := "Failed to read image file"
  const NotJpeg: string := "Failed to decode image as jpeg"
  const NoUpscale: string := "Failed to upscale image"
  const TweetFailed: string := "Failed to tweet image"

  /** A coordinate field: absent when empty or unparsable. */
  function Coordinate(field: string, parseFloat: string -> Option<real>): Option<real> {
    if field == "" then None else parseFloat(field)
  }

  /** The inclusive ranges the handler enforces, latitude first: as written,
      latitude gets ±180 and longitude ±90. */
  predicate LatOk(x: real) { -180.0 <= x <= 180.0 }
  predicate LongOk(x: real) { -90.0 <= x <= 90.0 }

  /** Every check before the image is read passes. */
  predicate Admissible(token: string, f: Form, sv: Services) {
    var lat, long := Coordinate(f.lat, sv.parseFloat), Coordinate(f.long, sv.parseFloat);
    && f.auth == token
    && (lat.Some? ==> LatOk(lat.value))
    && (long.Some? ==> LongOk(long.value))
    && lat.Some? == long.Some?
  }

  function TweetUrl(obj: TweetObject): string {
    "https://twitter.com/" + obj.screenName + "/status/" + obj.idStr
  }

  /** `handle`. */
  function Handle(token: string, f: Form, sv: Services): (h: Handled)
    ensures h.status in {201, 400, 401, 500}
    ensures h.status == 401 <==> f.auth != token
    ensures h.status == 401 ==> h == Handled(401, Message(InvalidAuth), false, None)
    ensures h.recognised <==> Admissible(token, f, sv) && f.image.Some?
    ensures h.status == 400 <==> f.auth == token && (!Admissible(token, f, sv) || f.image.None?)
    ensures h.posted.Some? ==> h.recognised && f.image.Some?
    ensures h.posted.Some? ==>
      h.posted.value == TweetText(sv.recognise(f.image.value), Coordinate(f.lat, sv.parseFloat),
                                  Coordinate(f.long, sv.parseFloat), sv.coord)
    ensures h.status == 201 ==> h.posted.Some? && h.payload.Tweeted? && h.payload.tweet == h.posted.value
  {
    if f.auth != token then Handled(401, Message(InvalidAuth), false, None)
    else
      var lat := Coordinate(f.lat, sv.parseFloat);
      if lat.Some? && !LatOk(lat.value) then Handled(400, Message(LatOutOfRange), false, None)
      else
        var long := Coordinate(f.long, sv.parseFloat);
        if long.Some? && !LongOk(long.value) then Handled(400, Message(LongOutOfRange), false, None)
        else if lat.Some? != long.Some? then Handled(400, Message(NeedBoth), false, None)
        else if f.image.None? then Handled(400, Message(NoImage), false, None)
        else
          var image := f.image.value;
          var text := TweetText(sv.recognise(image), lat, long, sv.coord);
          if !sv.decodes(image) then Handled(500, Message(NotJpeg), true, None)
          else match sv.upscale(image)
            case None => Handled(500, Message(NoUpscale), true, None)
            case Some(big) =>
              match sv.tweet(text, big)
              case Err(_) => Handled(500, Message(TweetFailed), true, Some(text))
              case Ok(obj) =>
                Handled(201, Tweeted(text, if obj.Some? then Some(TweetUrl(obj.value)) else None), true, Some(text))
  }

  /** Out-of-range coordinates are rejected before the pairing rule is
      looked at: a lone latitude of 200 draws the latitude message. */
  lemma RangeBeforePairing(token: string, sv: Services, image: Option<seq<byte>>)
    requires sv.parseFloat("200") == Some(200.0)
    ensures Handle(token, Form(token, "200", "", image), sv).payload == Message(LatOutOfRange)
  {
  }

  /** The ranges apply as written, latitude ±180 and longitude ±90, the
      reverse of the geographic convention: a position east of 90°E, such
      as (39.9, 116.4), is refused, while a latitude of 100 passes. */
  lemma RangesAsWritten(token: string, image: Option<seq<byte>>, sv: Services)
    requires sv.parseFloat("39.9") == Some(39.9) && sv.parseFloat("116.4") == Some(116.4)
    requires sv.parseFloat("100") == Some(100.0) && sv.parseFloat("0") == Some(0.0)
    ensures Handle(token, Form(token, "39.9", "116.4", image), sv) == Handled(400, Message(LongOutOfRange), false, None)
    ensures Admissible(token, Form(token, "100", "0", image), sv)
  {
  }

  /** An empty or unparsable coordinate counts as absent: with both fields
      so, the request goes on to the image. */
  lemma AbsentCoordinatesProceed(token: string, lat: string, long: string, image: seq<byte>, sv: Services)
    requires lat == "" || sv.parseFloat(lat).None?
    requires long == "" || sv.parseFloat(long).None?
    ensures Handle(token, Form(token, lat, long, Some(image)), sv).recognised
  {
  }

  /** Exactly one coordinate present and in range is a bad request with the
      pairing message. */
  lemma OneCoordinateRejected(token: string, f: Form, sv: Services)
    requires f.auth == token
    requires var lat, long := Coordinate(f.lat, sv.parseFloat), Coordinate(f.long, sv.parseFloat);
      && (lat.Some? ==> LatOk(lat.value)) && (long.Some? ==> LongOk(long.value))
      && lat.Some? != long.Some?
    ensures Handle(token, f, sv) == Handled(400, Message(NeedBoth), false, None)
  {
  }

  /** A request succeeds exactly when it is admissible, carries an image
      that decodes and upscales, and Twitter accepts the tweet; the URL is
      present exactly when Twitter returned a tweet object. */
  lemma CreatedIff(token: string, f: Form, sv: Services)
    ensures var h := Handle(token, f, sv);
      h.status == 201 <==>
        && Admissible(token, f, sv) && f.image.Some?
        && sv.decodes(f.image.value)
        && sv.upscale(f.image.value).Some?
        && sv.tweet(h.posted.value, sv.upscale(f.image.value).value).Ok?
    ensures var h := Handle(token, f, sv);
      h.status == 201 ==>
        var obj := sv.tweet(h.posted.value, sv.upscale(f.image.value).value).value;
        h.payload.url == if obj.Some? then Some(TweetUrl(obj.value)) else None
  {
  }

  /** Starting the service and handling a request together: only the
      configured token gets past the gate, and when the variable is unset
      outside DEV and PROD, a request with no `auth` field does. */
  lemma ConfiguredTokenGate(tokenVar: Option<string>, env: string, f: Form, sv: Services)
    requires ServiceConfig.NewTweetEndpoint(tokenVar, env).Ok?
    ensures var token := ServiceConfig.NewTweetEndpoint(tokenVar, env).value;
      Handle(token, f, sv).status == 401 <==> f.auth != token
    ensures tokenVar.None? && env != ServiceConfig.Dev && f.auth == ""
            ==> Handle(ServiceConfig.NewTweetEndpoint(tokenVar, env).value, f, sv).status != 401
  {
  }
}

=== FILE: tweeter_client.dfy ===
/** The HTTP side of camera-thing/main/tweeter.cpp: the text of the health
    and tweet requests, the wait for a response and the status-line scan.

    The socket is replaced by what it would report: whether `connect`
    succeeds, the observations made while waiting (`available()` and
    `millis()` at each pass of the wait loop) and the response text the read
    loop consumes.  `%02.5f` formatting of the coordinates is the oracle
    `fmt`. */
module TweeterClient {
  import opened Basics
  import opened Text

  // ---------------------------------------------------------------- requests

  /** The `/health` request of `checkTweeterAccessible`. */
  function HealthRequest(host: string): (req: string)
    ensures '\n' !in host ==>
      Segments(req, '\n') == ["GET /health HTTP/1.1\r", "Host: " + host + "\r", "Connection: close\r", "\r"]
    ensures 4 <= |req| && req[|req| - 4..] == "\r\n\r\n"
  {
    var lines := "GET /health HTTP/1.1\r\n" + "Host: " + host + "\r\n";
    var req := lines + Closing;
    EndsInBlankLine(req, lines);
    if '\n' !in host then
      HealthLines(host, req);
      req
    else req
  }

  /** The last header line of both requests and the blank line after it. */
  const Closing: string := "Connection: close\r\n\r\n"

  lemma HealthLines(host: string, req: string)
    requires '\n' !in host
    requires req == "GET /health HTTP/1.1\r\n" + "Host: " + host + "\r\n" + "Connection: close\r\n\r\n"
    ensures Segments(req, '\n') == ["GET /health HTTP/1.1\r", "Host: " + host + "\r", "Connection: close\r", "\r"]
  {
    var l0, l1, l2, l3 := "GET /health HTTP/1.1\r", "Host: " + host + "\r", "Connection: close\r", "\r";
    var r3 := l3 + ['\n'];
    var r0 := l0 + ['\n'] + (l1 + ['\n'] + (l2 + ['\n'] + r3));
    HealthRegroup(host, req, r0);
    HealthLinesPlain(host, l0, l1, l2, l3);
    SegmentsPrepend(r3, l3, '\n', [], []);
    ThreeLines(r0, l0, l1, l2, r3, [l3]);
  }

  /** The request line of `makeTweetRequest` (section 3.1 of RFC 9112:
      method, space, target, space, version, CRLF); the coordinates are in
      the query only when geolocation is enabled. */
  function TweetRequestLine(token: string, geo: bool, lat: real, lon: real, fmt: real -> string): string {
    "POST " + TweetTarget(token, geo, lat, lon, fmt) + " HTTP/1.1\r\n"
  }

  function TweetTarget(token: string, geo: bool, lat: real, lon: real, fmt: real -> string): string {
    "/tweet?auth=" + token + (if geo then "&lat=" + fmt(lat) + "&long=" + fmt(lon) else "")
  }

  /** The target always starts with the auth query; it goes on past it
      exactly when geolocation is enabled, with the latitude field first. */
  lemma TargetShape(token: string, geo: bool, lat: real, lon: real, fmt: real -> string)
    ensures var t := TweetTarget(token, geo, lat, lon, fmt);
      && "/tweet?auth=" + token <= t
      && (geo <==> |t| > |"/tweet?auth=" + token|)
      && (geo ==> t[|"/tweet?auth=" + token|..] == "&lat=" + fmt(lat) + "&long=" + fmt(lon))
  {
    var t := TweetTarget(token, geo, lat, lon, fmt);
    var p := "/tweet?auth=" + token;
    assert t[..|p|] == p;
  }

  /** The value sent as `Content-Length`: the JPEG length plus 1000,
      whatever the body really holds. */
  function DeclaredLength(jpgLen: nat): nat {
    jpgLen + 1000
  }

  /** The request line and the headers of `makeTweetRequest`, up to and
      including the blank line. */
  function TweetHead(host: string, token: string, geo: bool, lat: real, lon: real,
                     fmt: real -> string, jpgLen: nat): string
  {
    TweetRequestLine(token, geo, lat, lon, fmt)
      + "Host: " + host + "\r\n"
      + "Content-Type: multipart/form-data;boundary=\"boundary\"\r\n"
      + "Content-Length: " + Decimal(DeclaredLength(jpgLen)) + "\r\n"
      + "Connection: close\r\n\r\n"
  }

  /** The header lines of the tweet request, each still ending in CR. */
  function TweetHeadLines(host: string, token: string, geo: bool, lat: real, lon: real,
                          fmt: real -> string, jpgLen: nat): seq<string>
  {
    ["POST " + TweetTarget(token, geo, lat, lon, fmt) + " HTTP/1.1\r",
     "Host: " + host + "\r",
     "Content-Type: multipart/form-data;boundary=\"boundary\"\r",
     "Content-Length: " + Decimal(DeclaredLength(jpgLen)) + "\r",
     "Connection: close\r",
     "\r"]
  }

  /** Split at line feeds, the head gives back its six lines, the last one
      empty but for its CR, and the `Content-Length` value reads back as the
      JPEG length plus 1000. */
  lemma TweetHeadParts(host: string, token: string, geo: bool, lat: real, lon: real,
                       fmt: real -> string, jpgLen: nat)
    requires '\n' !in host && '\n' !in token && '\n' !in fmt(lat) && '\n' !in fmt(lon)
    ensures var head := TweetHead(host, token, geo, lat, lon, fmt, jpgLen);
      4 <= |head| && head[|head| - 4..] == "\r\n\r\n"
    ensures var ls := TweetHeadLines(host, token, geo, lat, lon, fmt, jpgLen);
      && Segments(TweetHead(host, token, geo, lat, lon, fmt, jpgLen), '\n') == ls
      && ls[3][..|"Content-Length: "|] == "Content-Length: "
      && ParseDecimal(ls[3][|"Content-Length: "|..|ls[3]| - 1]) == Some(jpgLen + 1000)
  {
    var target := TweetTarget(token, geo, lat, lon, fmt);
    var n := Decimal(DeclaredLength(jpgLen));
    TargetHasNoLf(token, geo, lat, lon, fmt);
    HeadText(host, token, geo, lat, lon, fmt, jpgLen, target, n);
    HeadEnds(TweetHead(host, token, geo, lat, lon, fmt, jpgLen), target, host, n);
    HeadSplit(TweetHead(host, token, geo, lat, lon, fmt, jpgLen), target, host, n,
              TweetHeadLines(host, token, geo, lat, lon, fmt, jpgLen));
    ContentLengthValue(TweetHeadLines(host, token, geo, lat, lon, fmt, jpgLen)[3], n, jpgLen + 1000);
  }

  /** Opening delimiter, part headers and blank line (section 4 of RFC 7578,
      delimiter as in section 5.1.1 of RFC 2046). */
  const PartOpening: string :=
    "--boundary\r\n" + "Content-Disposition: form-data; name=\"image\"; filename=\"Untitled.jpg\"\r\n" + "\r\n"

  /** The CRLF before the close delimiter, the close delimiter and the
      trailing blank line. */
  const PartClosing: string := "\r\n--boundary--\r\n\r\n"

  /** The JPEG octets as they go on the wire, one character per octet. */
  function ByteText(bytes: seq<byte>): (s: string)
    ensures |s| == |bytes|
    ensures forall i :: 0 <= i < |s| ==> s[i] as int == bytes[i]
  {
    seq(|bytes|, i requires 0 <= i < |bytes| => bytes[i] as char)
  }

  /** The multipart body of `makeTweetRequest`. */
  function TweetBody(jpg: seq<byte>): string {
    PartOpening + ByteText(jpg) + PartClosing
  }

  /** Everything `makeTweetRequest` writes on a connected client: the head,
      whose lines split back as `TweetHeadLines` when the texts in it hold
      no line feed, then a body from which the receiver reads back the JPEG
      (cut short when the JPEG holds the delimiter) and which is 897 octets
      shorter than the declared `Content-Length`. */
  function TweetRequest(host: string, token: string, geo: bool, lat: real, lon: real,
                        fmt: real -> string, jpg: seq<byte>): (req: string)
    ensures var head := TweetHead(host, token, geo, lat, lon, fmt, |jpg|);
      && head <= req
      && (!HoldsDelimiter(ByteText(jpg)) ==> ReceivedImage(req[|head|..]) == Some(jpg))
      && (HoldsDelimiter(ByteText(jpg)) ==>
            ReceivedImage(req[|head|..]).Some? && ReceivedImage(req[|head|..]).value < jpg)
      && |req| - |head| + 897 == DeclaredLength(|jpg|)
    ensures '\n' !in host && '\n' !in token && '\n' !in fmt(lat) && '\n' !in fmt(lon) ==>
      var k := |TweetHead(host, token, geo, lat, lon, fmt, |jpg|)|;
      Segments(req[..k], '\n') == TweetHeadLines(host, token, geo, lat, lon, fmt, |jpg|)
  {
    var head := TweetHead(host, token, geo, lat, lon, fmt, |jpg|);
    var req := head + TweetBody(jpg);
    assert req[..|head|] == head;
    assert req[|head|..] == TweetBody(jpg);
    ImageRoundTrip(jpg);
    ContentLengthOverstates(jpg);
    if '\n' !in host && '\n' !in token && '\n' !in fmt(lat) && '\n' !in fmt(lon) then
      TweetHeadParts(host, token, geo, lat, lon, fmt, |jpg|);
      req
    else req
  }

  /** The delimiter that ends a body part (section 5.1.1 of RFC 2046):
      CRLF, two hyphens and the boundary `boundary`. */
  const Delimiter: string := "\r\n--boundary"

  /** The delimiter starts at position `p` of `s`. */
  predicate DelimiterAt(s: string, p: nat) {
    p + |Delimiter| <= |s| && s[p..p + |Delimiter|] == Delimiter
  }

  /** Somewhere in `s` the delimiter occurs. */
  ghost predicate HoldsDelimiter(s: string) {
    exists p: nat :: DelimiterAt(s, p)
  }

  /** Where the first delimiter of `s` starts, or `|s|` when there is none. */
  function FirstDelimiter(s: string): (r: nat)
    ensures r <= |s|
    ensures r < |s| ==> DelimiterAt(s, r)
    ensures forall q: nat :: q < r ==> !DelimiterAt(s, q)
    decreases |s|
  {
    if |s| < |Delimiter| then |s|
    else if s[..|Delimiter|] == Delimiter then 0
    else
      DelimiterShift(s);
      1 + FirstDelimiter(s[1..])
  }

  /** Dropping the first character moves every occurrence one place left. */
  lemma DelimiterShift(s: string)
    requires 0 < |s|
    ensures forall q: nat :: 1 <= q ==> (DelimiterAt(s, q) <==> DelimiterAt(s[1..], q - 1))
  {
    forall q: nat | 1 <= q
      ensures DelimiterAt(s, q) <==> DelimiterAt(s[1..], q - 1)
    {
      if q + |Delimiter| <= |s| {
        assert s[q..q + |Delimiter|] == s[1..][q - 1..q - 1 + |Delimiter|];
      }
    }
  }

  /** What a multipart receiver reads as the image: the octets after the
      part headers up to the FIRST delimiter.  Nothing is read when the
      opening is missing, no delimiter follows, or a character is not an
      octet. */
  function ReceivedImage(body: string): Option<seq<byte>> {
    if !(PartOpening <= body) then None
    else
      var rest := body[|PartOpening|..];
      var i := FirstDelimiter(rest);
      if i < |rest| && IsByteText(rest[..i]) then Some(TextBytes(rest[..i])) else None
  }

  predicate IsByteText(s: string) {
    forall i :: 0 <= i < |s| ==> s[i] as int < 256
  }

  /** The octets of a text whose characters are all below 256. */
  function TextBytes(s: string): (bytes: seq<byte>)
    requires IsByteText(s)
    ensures |bytes| == |s|
    ensures forall i :: 0 <= i < |s| ==> bytes[i] == s[i] as int
  {
    seq(|s|, i requires 0 <= i < |s| => s[i] as int)
  }

  /** The receiver gets the JPEG back intact when its octets hold no
      delimiter; otherwise it gets a proper prefix: the image is cut at the
      first delimiter inside it. */
  lemma ImageRoundTrip(jpg: seq<byte>)
    ensures !HoldsDelimiter(ByteText(jpg)) ==> ReceivedImage(TweetBody(jpg)) == Some(jpg)
    ensures HoldsDelimiter(ByteText(jpg)) ==>
      ReceivedImage(TweetBody(jpg)).Some? && ReceivedImage(TweetBody(jpg)).value < jpg
  {
    var t := ByteText(jpg);
    var q := FirstDelimiter(t);
    ReceivedPrefix(jpg);
    if HoldsDelimiter(t) {
      var p: nat :| DelimiterAt(t, p);
      assert q <= p < |jpg|;
    } else {
      assert q == |jpg|;
      assert jpg[..q] == jpg;
    }
  }

  /** The receiver reads the JPEG up to the first delimiter in its octets:
      the closing, which starts with a delimiter, cannot end the part any
      earlier, nor can a delimiter straddle the JPEG and the closing. */
  lemma ReceivedPrefix(jpg: seq<byte>)
    ensures var q := FirstDelimiter(ByteText(jpg));
      q <= |jpg| && ReceivedImage(TweetBody(jpg)) == Some(jpg[..q])
  {
    var t := ByteText(jpg);
    var body := TweetBody(jpg);
    assert body == PartOpening + (t + PartClosing);
    ReadUpToFirst(body, t);
    var q := FirstDelimiter(t);
    assert IsByteText(t[..q]);
    assert TextBytes(t[..q]) == jpg[..q];
  }

  /** Whatever precedes the closing, the receiver reads it up to its first
      delimiter. */
  lemma ReadUpToFirst(body: string, t: string)
    requires body == PartOpening + (t + PartClosing)
    ensures var q := FirstDelimiter(t);
      ReceivedImage(body) == if IsByteText(t[..q]) then Some(TextBytes(t[..q])) else None
  {
    assert PartOpening <= body;
    assert body[|PartOpening|..] == t + PartClosing;
    ClosingStartsWithDelimiter();
    FirstInJoin(t, PartClosing);
    var q := FirstDelimiter(t);
    assert (t + PartClosing)[..q] == t[..q];
  }

  lemma ClosingStartsWithDelimiter()
    ensures Delimiter <= PartClosing
  { }

  /** A JPEG whose octets are those of the closing reaches the receiver as
      an empty image: the part ends at the delimiter the JPEG begins with. */
  lemma ClosingAsImageReadsEmpty()
    ensures IsByteText(PartClosing)
    ensures var jpg := TextBytes(PartClosing);
      |jpg| == 18 && ReceivedImage(TweetBody(jpg)) == Some([])
  {
    var jpg := TextBytes(PartClosing);
    assert ByteText(jpg) == PartClosing;
    assert DelimiterAt(PartClosing, 0);
    ReceivedPrefix(jpg);
  }

  /** In `t + c` with `c` starting with the delimiter, the first delimiter
      is the first one of `t`, or the start of `c`.  No delimiter straddles
      the two, because its first character, CR, does not recur in it. */
  lemma {:induction false} FirstInJoin(t: string, c: string)
    requires Delimiter <= c
    ensures FirstDelimiter(t + c) == FirstDelimiter(t)
    decreases |t|
  {
    var s := t + c;
    if |t| == 0 {
      assert s == c;
      assert s[..|Delimiter|] == Delimiter;
    } else if |t| < |Delimiter| {
      assert s[|t|] == '\r';
      assert Delimiter[|t|] != '\r';
      assert s[..|Delimiter|][|t|] != Delimiter[|t|];
      assert s[1..] == t[1..] + c;
      FirstInJoin(t[1..], c);
    } else {
      assert s[..|Delimiter|] == t[..|Delimiter|];
      if t[..|Delimiter|] != Delimiter {
        assert s[1..] == t[1..] + c;
        FirstInJoin(t[1..], c);
      }
    }
  }

  /** The declared `Content-Length` overstates the body by 897 octets, for
      every image. */
  lemma ContentLengthOverstates(jpg: seq<byte>)
    ensures |TweetBody(jpg)| == |jpg| + 103
    ensures DeclaredLength(|jpg|) - |TweetBody(jpg)| == 897
  {
  }

  /** With a token and coordinate texts free of spaces, the request line has
      exactly the three space-separated parts of section 3 of RFC 9112. */
  lemma RequestLineParts(token: string, geo: bool, lat: real, lon: real, fmt: real -> string)
    requires ' ' !in token && ' ' !in fmt(lat) && ' ' !in fmt(lon)
    ensures var line := TweetRequestLine(token, geo, lat, lon, fmt);
      && line[|line| - 2..] == "\r\n"
      && Segments(line[..|line| - 2], ' ') == ["POST", TweetTarget(token, geo, lat, lon, fmt), "HTTP/1.1"]
  {
    var target := TweetTarget(token, geo, lat, lon, fmt);
    TargetHasNoSpace(token, geo, lat, lon, fmt);
    RequestLineWords(TweetRequestLine(token, geo, lat, lon, fmt), target);
  }

  // ----------------------------------------------------------- waiting

  /** What one pass of the wait loop observes: `webClient.available()` and,
      when nothing is available, `millis()`. */
  datatype Poll = Poll(available: nat, millis: int)

  /** The outcome of the wait loop: data arrived at pass `k`, the timeout
      struck at pass `k`, or the observations ran out first. */
  datatype Wait = DataReady(k: nat) | TimedOut(k: nat) | StillWaiting

  /** `millis() - startTime > timeout` on the board: `startTime` is an `int`
      converted back to `unsigned long`, so the difference is taken modulo
      2^32 and compared with the timeout converted to unsigned. */
  predicate Expired(start: int, now: int, timeout: int) {
    ToU32(now - start) > ToU32(timeout)
  }

  /** The wait loop run over the observations from pass `i` on. */
  function AwaitFrom(start: int, timeout: int, polls: seq<Poll>, i: nat): (w: Wait)
    requires i <= |polls|
    ensures w.DataReady? ==> i <= w.k < |polls| && polls[w.k].available > 0
    ensures w.TimedOut? ==> i <= w.k < |polls| && polls[w.k].available == 0
                            && Expired(start, polls[w.k].millis, timeout)
    ensures !w.StillWaiting? ==> forall j :: i <= j < w.k ==>
              polls[j].available == 0 && !Expired(start, polls[j].millis, timeout)
    ensures w.StillWaiting? ==> forall j :: i <= j < |polls| ==>
              polls[j].available == 0 && !Expired(start, polls[j].millis, timeout)
    decreases |polls| - i
  {
    if i == |polls| then StillWaiting
    else if polls[i].available != 0 then DataReady(i)
    else if Expired(start, polls[i].millis, timeout) then TimedOut(i)
    else AwaitFrom(start, timeout, polls, i + 1)
  }

  function Await(start: int, timeout: int, polls: seq<Poll>): Wait {
    AwaitFrom(start, timeout, polls, 0)
  }

  /** If no data shows up and some pass sees the timeout elapsed, the loop
      gives up at or before that pass. */
  lemma NoDataTimesOut(start: int, timeout: int, polls: seq<Poll>, j: nat)
    requires j < |polls|
    requires forall i :: 0 <= i <= j ==> polls[i].available == 0
    requires Expired(start, polls[j].millis, timeout)
    ensures Await(start, timeout, polls).TimedOut? && Await(start, timeout, polls).k <= j
  {
  }

  /** Data that is there at the first pass is taken whatever the clock says. */
  lemma ReadyDataWins(start: int, timeout: int, polls: seq<Poll>)
    requires 0 < |polls| && polls[0].available > 0
    ensures Await(start, timeout, polls) == DataReady(0)
  {
  }

  /** A negative timeout converts to at least 2^31 milliseconds: the wait
      cannot time out within the first 2^31 ms. */
  lemma NegativeTimeoutWaitsLong(start: int, now: int, timeout: int)
    requires -0x8000_0000 <= timeout < 0
    requires 0 <= now - start < 0x8000_0000
    ensures !Expired(start, now, timeout)
  {
  }

  // ----------------------------------------------------------- the scan

  /** The read loop: `readStringUntil('\r')` while bytes remain, noting
      whether some line equals `status`.  Returns the lines it read. */
  method ScanResponse(response: string, status: string) returns (success: bool, lines: seq<string>)
    ensures lines == Segments(response, '\r')
    ensures success <==> status in lines
  {
    success, lines := false, [];
    var rest := response;
    while 0 < |rest|
      invariant lines + Segments(rest, '\r') == Segments(response, '\r')
      invariant success <==> status in lines
      decreases |rest|
    {
      var i := IndexOf(rest, '\r');
      var line := rest[..i];
      assert i == |rest| ==> line == rest;
      assert Segments(rest, '\r') == [line] + (if i == |rest| then [] else Segments(rest[i + 1..], '\r'));
      lines := lines + [line];
      if line == status {
        success := true;
      }
      rest := if i == |rest| then [] else rest[i + 1..];
    }
  }

  /** Whether the response holds a line equal to `status`, as the read loop
      decides it. */
  predicate Succeeds(response: string, status: string) {
    status in Segments(response, '\r')
  }

  /** Lines each terminated by CRLF, as an HTTP response frames them. */
  function CrlfLines(ls: seq<string>): string {
    if |ls| == 0 then "" else ls[0] + "\r\n" + CrlfLines(ls[1..])
  }

  predicate Plain(ls: seq<string>) {
    forall k :: 0 <= k < |ls| ==> '\r' !in ls[k] && '\n' !in ls[k]
  }

  /** After the first `'\r'` of a response made of CRLF-framed lines and a
      body without CR, every piece the read loop returns starts with the
      `'\n'` left over from a line ending. */
  lemma {:induction false} LeftoverNewlines(ls: seq<string>, body: string)
    requires Plain(ls) && '\r' !in body
    ensures var segs := Segments("\n" + CrlfLines(ls) + body, '\r');
      && |segs| == |ls| + 1
      && (forall k :: 0 <= k < |segs| ==> 0 < |segs[k]| && segs[k][0] == '\n')
  {
    if |ls| == 0 {
      assert "\n" + CrlfLines(ls) + body == "\n" + body;
      SegmentsSingle("\n" + body, '\r');
    } else {
      var rest := "\n" + CrlfLines(ls[1..]) + body;
      PlainTail(ls);
      LeftoverNewlines(ls[1..], body);
      var tail := Segments(rest, '\r');
      var head := "\n" + ls[0];
      CrlfStep(ls, body, head, rest);
      SegmentsCons(head, '\r', rest);
      var segs := [head] + tail;
      forall k | 0 <= k < |segs|
        ensures 0 < |segs[k]| && segs[k][0] == '\n'
      {
        if 0 < k {
          assert segs[k] == tail[k - 1];
        }
      }
    }
  }

  /** For a response of CRLF-framed lines holding no CR or LF, followed by
      a body without CR (the JSON the service writes ends in a bare LF), and
      a status that does not start with a line feed, only the first line
      can match: the call succeeds exactly when the status line is `status`. */
  lemma OnlyFirstLineCounts(ls: seq<string>, body: string, status: string)
    requires 0 < |ls| && Plain(ls) && '\r' !in body
    requires 0 < |status| && status[0] != '\n'
    ensures Succeeds(CrlfLines(ls) + body, status) <==> ls[0] == status
  {
    var rest := "\n" + CrlfLines(ls[1..]) + body;
    PlainTail(ls);
    LeftoverNewlines(ls[1..], body);
    CrlfFirst(ls, body, rest);
    SegmentsCons(ls[0], '\r', rest);
    var tail := Segments(rest, '\r');
    assert Segments(CrlfLines(ls) + body, '\r') == [ls[0]] + tail;
    assert status !in tail by {
      forall k | 0 <= k < |tail|
        ensures tail[k] != status
      {
        assert tail[k][0] == '\n';
      }
    }
  }

  /** A reply whose only header is `Content-Type`: a status line and that
      header framed by CRLF, the blank line, then JSON ending in a bare LF. */
  lemma CreatedJsonReply(statusLine: string, body: string)
    requires '\r' !in statusLine && '\n' !in statusLine && '\r' !in body
    ensures Succeeds(statusLine + "\r\n" + JsonHeader + "\r\n\r\n" + body, TweetCreated)
            <==> statusLine == TweetCreated
  {
    var ls := [statusLine, JsonHeader, ""];
    assert Plain(ls) by {
      assert '\r' !in JsonHeader && '\n' !in JsonHeader;
    }
    CrlfThree(statusLine, JsonHeader, "", statusLine + "\r\n" + JsonHeader + "\r\n\r\n");
    OnlyFirstLineCounts(ls, body, TweetCreated);
  }

  const JsonHeader: string := "Content-Type: application/json"

  // ----------------------------------------------------------- the calls

  /** How a call ends: it returned `success`, or it was still waiting when
      the observations ran out. */
  datatype Outcome = Returned(success: bool) | Waiting

  /** The outcome, what was written to the socket and whether `stop` was
      called. */
  datatype Call = Call(outcome: Outcome, sent: string, stopped: bool)

  const HealthOk: string := "HTTP/1.1 200 OK"
  const TweetCreated: string := "HTTP/1.1 201 Created"

  /** The request is written, the wait decides, the response is scanned. */
  function Exchange(request: string, status: string, start: int, timeout: int,
                    polls: seq<Poll>, response: string): (c: Call)
    ensures c.sent == request
    ensures c.outcome == Returned(true) <==> Await(start, timeout, polls).DataReady? && Succeeds(response, status)
    ensures c.outcome == Waiting <==> Await(start, timeout, polls).StillWaiting?
    ensures c.stopped <==> c.outcome.Returned?
  {
    match Await(start, timeout, polls)
    case StillWaiting => Call(Waiting, request, false)
    case TimedOut(_) => Call(Returned(false), request, true)
    case DataReady(_) => Call(Returned(Succeeds(response, status)), request, true)
  }

  /** `checkTweeterAccessible(timeout)`. */
  function CheckTweeterAccessible(host: string, connects: bool, start: int, timeout: int,
                                  polls: seq<Poll>, response: string): (c: Call)
    ensures !connects ==> c == Call(Returned(false), "", false)
    ensures connects ==> c.sent == HealthRequest(host)
    ensures c.outcome == Returned(true)
            <==> connects && Await(start, timeout, polls).DataReady? && Succeeds(response, HealthOk)
    ensures Await(start, timeout, polls).TimedOut? ==> c.outcome == Returned(false) && c.stopped == connects
  {
    if !connects then Call(Returned(false), "", false)
    else Exchange(HealthRequest(host), HealthOk, start, timeout, polls, response)
  }

  /** `makeTweetRequest(timeout, geolocationEnabled, lat, lon, jpg)`. */
  function MakeTweetRequest(host: string, token: string, geo: bool, lat: real, lon: real,
                            fmt: real -> string, jpg: seq<byte>, connects: bool, start: int,
                            timeout: int, polls: seq<Poll>, response: string): (c: Call)
    ensures !connects ==> c == Call(Returned(false), "", false)
    ensures connects ==> c.sent == TweetRequest(host, token, geo, lat, lon, fmt, jpg)
    ensures c.outcome == Returned(true)
            <==> connects && Await(start, timeout, polls).DataReady? && Succeeds(response, TweetCreated)
    ensures Await(start, timeout, polls).TimedOut? ==> c.outcome == Returned(false) && c.stopped == connects
  {
    if !connects then Call(Returned(false), "", false)
    else Exchange(TweetRequest(host, token, geo, lat, lon, fmt, jpg), TweetCreated,
                  start, timeout, polls, response)
  }

  /** A tweet service answering `201 Created` on its status line, in time,
      makes the call succeed; any other status line makes it fail. */
  lemma TweetSucceedsIffCreated(host: string, token: string, geo: bool, lat: real, lon: real,
                                fmt: real -> string, jpg: seq<byte>, start: int, timeout: int,
                                polls: seq<Poll>, ls: seq<string>, body: string)
    requires Await(start, timeout, polls).DataReady?
    requires 0 < |ls| && Plain(ls) && '\r' !in body
    ensures MakeTweetRequest(host, token, geo, lat, lon, fmt, jpg, true, start, timeout, polls,
                             CrlfLines(ls) + body).outcome
            == Returned(ls[0] == TweetCreated)
  {
    OnlyFirstLineCounts(ls, body, TweetCreated);
  }

  // ------------------------------------------------- splitting helpers

  /* The steps below carry no claim of their own about the client: they
     regroup concatenations, show that fixed texts hold no line feed, CR or
     space, and split a few joined pieces back, so that the request and
     response lemmas above can be proved piece by piece. */

  /** Text that ends with `Closing` ends with CRLF CRLF, the end of an HTTP
      head (section 2.1 of RFC 9112). */
  lemma EndsInBlankLine(s: string, lines: string)
    requires s == lines + Closing
    ensures 4 <= |s| && s[|s| - 4..] == "\r\n\r\n"
  {
    assert Closing[|Closing| - 4..] == "\r\n\r\n";
    assert s[|s| - 4..] == Closing[|Closing| - 4..];
  }

  lemma HealthRegroup(host: string, req: string, r0: string)
    requires req == "GET /health HTTP/1.1\r\n" + "Host: " + host + "\r\n" + "Connection: close\r\n\r\n"
    requires r0 == "GET /health HTTP/1.1\r" + ['\n'] + (("Host: " + host + "\r") + ['\n']
                   + ("Connection: close\r" + ['\n'] + ("\r" + ['\n'])))
    ensures req == r0
  {
  }

  lemma HealthLinesPlain(host: string, l0: string, l1: string, l2: string, l3: string)
    requires '\n' !in host
    requires l0 == "GET /health HTTP/1.1\r" && l1 == "Host: " + host + "\r"
    requires l2 == "Connection: close\r" && l3 == "\r"
    ensures '\n' !in l0 && '\n' !in l1 && '\n' !in l2 && '\n' !in l3
  {
  }

  lemma HeadText(host: string, token: string, geo: bool, lat: real, lon: real,
                 fmt: real -> string, jpgLen: nat, target: string, n: string)
    requires target == TweetTarget(token, geo, lat, lon, fmt) && n == Decimal(DeclaredLength(jpgLen))
    ensures TweetHead(host, token, geo, lat, lon, fmt, jpgLen)
         == "POST " + target + " HTTP/1.1\r\n"
            + "Host: " + host + "\r\n"
            + "Content-Type: multipart/form-data;boundary=\"boundary\"\r\n"
            + "Content-Length: " + n + "\r\n"
            + "Connection: close\r\n\r\n"
    ensures TweetHeadLines(host, token, geo, lat, lon, fmt, jpgLen)
         == ["POST " + target + " HTTP/1.1\r", "Host: " + host + "\r",
             "Content-Type: multipart/form-data;boundary=\"boundary\"\r",
             "Content-Length: " + n + "\r", "Connection: close\r", "\r"]
  {
  }

  lemma HeadEnds(head: string, target: string, host: string, n: string)
    requires head == "POST " + target + " HTTP/1.1\r\n"
                     + "Host: " + host + "\r\n"
                     + "Content-Type: multipart/form-data;boundary=\"boundary\"\r\n"
                     + "Content-Length: " + n + "\r\n"
                     + "Connection: close\r\n\r\n"
    ensures 4 <= |head| && head[|head| - 4..] == "\r\n\r\n"
  {
    var lines := "POST " + target + " HTTP/1.1\r\n"
                 + "Host: " + host + "\r\n"
                 + "Content-Type: multipart/form-data;boundary=\"boundary\"\r\n"
                 + "Content-Length: " + n + "\r\n";
    EndsInBlankLine(head, lines);
  }

  lemma HeadSplit(head: string, target: string, host: string, n: string, ls: seq<string>)
    requires '\n' !in target && '\n' !in host && AllDigits(n)
    requires head == "POST " + target + " HTTP/1.1\r\n"
                     + "Host: " + host + "\r\n"
                     + "Content-Type: multipart/form-data;boundary=\"boundary\"\r\n"
                     + "Content-Length: " + n + "\r\n"
                     + "Connection: close\r\n\r\n"
    requires ls == ["POST " + target + " HTTP/1.1\r", "Host: " + host + "\r",
                    "Content-Type: multipart/form-data;boundary=\"boundary\"\r",
                    "Content-Length: " + n + "\r", "Connection: close\r", "\r"]
    ensures Segments(head, '\n') == ls
  {
    var l0, l1, l2, l3, l4, l5 := "POST " + target + " HTTP/1.1\r", "Host: " + host + "\r",
      "Content-Type: multipart/form-data;boundary=\"boundary\"\r", "Content-Length: " + n + "\r",
      "Connection: close\r", "\r";
    var r0 := l0 + ['\n'] + (l1 + ['\n'] + (l2 + ['\n'] + (l3 + ['\n'] + (l4 + ['\n'] + (l5 + ['\n'])))));
    HeadRegroup(head, target, host, n, r0);
    HeadLinesPlain(target, host, n, l0, l1, l2, l3, l4, l5);
    SixLines(r0, l0, l1, l2, l3, l4, l5);
  }

  lemma ContentLengthValue(line: string, n: string, value: nat)
    requires n == Decimal(value) && line == "Content-Length: " + n + "\r"
    ensures line[..|"Content-Length: "|] == "Content-Length: "
    ensures ParseDecimal(line[|"Content-Length: "|..|line| - 1]) == Some(value)
  {
    assert line[|"Content-Length: "|..|line| - 1] == n;
    DecimalRoundTrip(value);
  }

  /** Six lines without line feeds, each followed by one, split back. */
  lemma SixLines(whole: string, l0: string, l1: string, l2: string, l3: string, l4: string, l5: string)
    requires '\n' !in l0 && '\n' !in l1 && '\n' !in l2 && '\n' !in l3 && '\n' !in l4 && '\n' !in l5
    requires whole == l0 + ['\n'] + (l1 + ['\n'] + (l2 + ['\n'] + (l3 + ['\n'] + (l4 + ['\n'] + (l5 + ['\n'])))))
    ensures Segments(whole, '\n') == [l0, l1, l2, l3, l4, l5]
  {
    var r3 := l3 + ['\n'] + (l4 + ['\n'] + (l5 + ['\n']));
    ThreeLines(r3, l3, l4, l5, [], []);
    ThreeLines(whole, l0, l1, l2, r3, [l3, l4, l5]);
  }

  /** Three lines without line feeds, each followed by one, in front of
      `rest`. */
  lemma ThreeLines(whole: string, a: string, b: string, c: string, rest: string, pieces: seq<string>)
    requires '\n' !in a && '\n' !in b && '\n' !in c && Segments(rest, '\n') == pieces
    requires whole == a + ['\n'] + (b + ['\n'] + (c + ['\n'] + rest))
    ensures Segments(whole, '\n') == [a, b, c] + pieces
  {
    var rc := c + ['\n'] + rest;
    var rb := b + ['\n'] + rc;
    var pc := [c] + pieces;
    var pb := [b] + pc;
    SegmentsPrepend(rc, c, '\n', rest, pieces);
    SegmentsPrepend(rb, b, '\n', rc, pc);
    SegmentsPrepend(whole, a, '\n', rb, pb);
    assert [a] + pb == [a, b, c] + pieces;
  }

  lemma HeadRegroup(head: string, target: string, host: string, n: string, r0: string)
    requires head == "POST " + target + " HTTP/1.1\r\n"
                     + "Host: " + host + "\r\n"
                     + "Content-Type: multipart/form-data;boundary=\"boundary\"\r\n"
                     + "Content-Length: " + n + "\r\n"
                     + "Connection: close\r\n\r\n"
    requires r0 == ("POST " + target + " HTTP/1.1\r") + ['\n']
                   + (("Host: " + host + "\r") + ['\n']
                   + ("Content-Type: multipart/form-data;boundary=\"boundary\"\r" + ['\n']
                   + (("Content-Length: " + n + "\r") + ['\n']
                   + ("Connection: close\r" + ['\n']
                   + ("\r" + ['\n'])))))
    ensures head == r0
  {
  }

  lemma HeadLinesPlain(target: string, host: string, n: string,
                       l0: string, l1: string, l2: string, l3: string, l4: string, l5: string)
    requires '\n' !in target && '\n' !in host && AllDigits(n)
    requires l0 == "POST " + target + " HTTP/1.1\r" && l1 == "Host: " + host + "\r"
    requires l2 == "Content-Type: multipart/form-data;boundary=\"boundary\"\r"
    requires l3 == "Content-Length: " + n + "\r" && l4 == "Connection: close\r" && l5 == "\r"
    ensures '\n' !in l0 && '\n' !in l1 && '\n' !in l2 && '\n' !in l3 && '\n' !in l4 && '\n' !in l5
  {
    DigitsHaveNoLf(n);
    ContentTypeHasNoLf();
  }

  lemma DigitsHaveNoLf(n: string)
    requires AllDigits(n)
    ensures '\n' !in n
  {
  }

  lemma ContentTypeHasNoLf()
    ensures '\n' !in "Content-Type: multipart/form-data;boundary=\"boundary\"\r"
  {
    ContentTypePieces();
    NoLfInPieces();
  }

  lemma ContentTypePieces()
    ensures "Content-Type: multipart/form-data;boundary=\"boundary\"\r"
         == "Content-Type: " + "multipart/form-data;" + "boundary=\"boundary\"\r"
  {
  }

  lemma NoLfInPieces()
    ensures '\n' !in "Content-Type: " && '\n' !in "multipart/form-data;" && '\n' !in "boundary=\"boundary\"\r"
  {
  }

  lemma RequestLineWords(line: string, target: string)
    requires line == "POST " + target + " HTTP/1.1\r\n" && ' ' !in target
    ensures line[|line| - 2..] == "\r\n"
    ensures Segments(line[..|line| - 2], ' ') == ["POST", target, "HTTP/1.1"]
  {
    RequestLineSplit(target);
    RequestWords(target);
  }

  lemma RequestWords(target: string)
    requires ' ' !in target
    ensures Segments("POST" + [' '] + (target + [' '] + "HTTP/1.1"), ' ') == ["POST", target, "HTTP/1.1"]
  {
    assert ' ' !in "POST" && ' ' !in "HTTP/1.1";
    ThreeWords("POST", target, "HTTP/1.1");
  }

  lemma RequestLineSplit(target: string)
    ensures var line := "POST " + target + " HTTP/1.1\r\n";
      && line[|line| - 2..] == "\r\n"
      && line[..|line| - 2] == "POST" + [' '] + (target + [' '] + "HTTP/1.1")
  {
    var line := "POST " + target + " HTTP/1.1\r\n";
    assert line == ("POST" + [' '] + (target + [' '] + "HTTP/1.1")) + "\r\n";
  }

  lemma TargetHasNoLf(token: string, geo: bool, lat: real, lon: real, fmt: real -> string)
    requires '\n' !in token && '\n' !in fmt(lat) && '\n' !in fmt(lon)
    ensures '\n' !in TweetTarget(token, geo, lat, lon, fmt)
  {
  }

  lemma TargetHasNoSpace(token: string, geo: bool, lat: real, lon: real, fmt: real -> string)
    requires ' ' !in token && ' ' !in fmt(lat) && ' ' !in fmt(lon)
    ensures ' ' !in TweetTarget(token, geo, lat, lon, fmt)
  {
  }

  lemma ThreeWords(a: string, b: string, c: string)
    requires ' ' !in a && ' ' !in b && ' ' !in c && 0 < |c|
    ensures Segments(a + [' '] + (b + [' '] + c), ' ') == [a, b, c]
  {
    SegmentsSingle(c, ' ');
    SegmentsCons(b, ' ', c);
    SegmentsCons(a, ' ', b + [' '] + c);
  }

  lemma CrlfStep(ls: seq<string>, body: string, head: string, rest: string)
    requires 0 < |ls| && head == "\n" + ls[0] && rest == "\n" + CrlfLines(ls[1..]) + body
    ensures "\n" + CrlfLines(ls) + body == head + ['\r'] + rest
  {
  }

  lemma PlainTail(ls: seq<string>)
    requires 0 < |ls| && Plain(ls)
    ensures Plain(ls[1..]) && '\r' !in ls[0] && '\n' !in ls[0]
  {
    forall k | 0 <= k < |ls[1..]|
      ensures '\r' !in ls[1..][k] && '\n' !in ls[1..][k]
    {
      assert ls[1..][k] == ls[k + 1];
    }
  }

  lemma CrlfFirst(ls: seq<string>, body: string, rest: string)
    requires 0 < |ls| && rest == "\n" + CrlfLines(ls[1..]) + body
    ensures CrlfLines(ls) + body == ls[0] + ['\r'] + rest
  {
  }

  lemma CrlfThree(a: string, b: string, c: string, whole: string)
    requires whole == a + "\r\n" + b + "\r\n" + c + "\r\n"
    ensures CrlfLines([a, b, c]) == whole
  {
    assert [c][1..] == [];
    var lc := CrlfLines([c]);
    assert lc == c + "\r\n" + CrlfLines([]);
    assert c + "\r\n" + "" == c + "\r\n";
    assert [b, c][1..] == [c];
    var lb := CrlfLines([b, c]);
    assert lb == b + "\r\n" + lc;
    assert [a, b, c][1..] == [b, c];
    assert CrlfLines([a, b, c]) == a + "\r\n" + lb;
  }
}

=== FILE: wifi_client.dfy ===
/** camera-thing/main/wifiClient.cpp: the dotted-quad formatter `ip2str`
    and the retry policy of `setupWifiClient`.

    `WiFi.status()` is an oracle: `connected(a, t)` is whether the poll of
    trial `t` in attempt `a` reports `WL_CONNECTED`.  The one-second waits,
    the `WiFi.begin` calls and the " failed! :(" notices are counted. */
module WifiClient {
  import opened Basics
  import opened Text

  /** The four octets of an `IPAddress`, index 0 first. */
  type Octets = s: seq<byte> | |s| == 4 witness [0, 0, 0, 0]

  /** `ip2str`: the octets in decimal, in index order, joined by ".". */
  function Ip2Str(address: Octets): (s: string)
    ensures ParseDottedQuad(s) == Some(address)
  {
    var s := Decimal(address[0]) + "." + Decimal(address[1]) + "."
           + Decimal(address[2]) + "." + Decimal(address[3]);
    Ip2StrParses(address);
    s
  }

  /** Reads back a dotted quad: four canonical decimal numerals below 256
      separated by single dots. */
  function ParseDottedQuad(s: string): Option<Octets> {
    var parts := Segments(s, '.');
    if 0 < |s| && s[|s| - 1] != '.' && |parts| == 4 then
      var a, b, c, d := ParseDecimal(parts[0]), ParseDecimal(parts[1]),
                        ParseDecimal(parts[2]), ParseDecimal(parts[3]);
      if a.Some? && b.Some? && c.Some? && d.Some?
         && a.value < 256 && b.value < 256 && c.value < 256 && d.value < 256
      then Some([a.value, b.value, c.value, d.value])
      else None
    else None
  }

  lemma DecimalHasNoDot(n: nat)
    ensures '.' !in Decimal(n)
  {
  }

  /** Four dot-free pieces joined by dots split back into the pieces. */
  lemma SplitFour(d0: string, d1: string, d2: string, d3: string)
    requires '.' !in d0 && '.' !in d1 && '.' !in d2 && '.' !in d3 && 0 < |d3|
    ensures Segments(d0 + "." + d1 + "." + d2 + "." + d3, '.') == [d0, d1, d2, d3]
  {
    var r2 := d2 + ['.'] + d3;
    var r1 := d1 + ['.'] + r2;
    var r0 := d0 + ['.'] + r1;
    JoinNested(d0, d1, d2, d3, r0);
    var p3 := [d3];
    var p2 := [d2] + p3;
    var p1 := [d1] + p2;
    SegmentsSingle(d3, '.');
    SegmentsPrepend(r2, d2, '.', d3, p3);
    SegmentsPrepend(r1, d1, '.', r2, p2);
    SegmentsPrepend(r0, d0, '.', r1, p1);
    assert [d0] + p1 == [d0, d1, d2, d3];
  }

  lemma JoinNested(d0: string, d1: string, d2: string, d3: string, r0: string)
    requires r0 == d0 + ['.'] + (d1 + ['.'] + (d2 + ['.'] + d3))
    ensures d0 + "." + d1 + "." + d2 + "." + d3 == r0
  {
  }

  lemma Ip2StrParses(address: Octets)
    ensures var s := Decimal(address[0]) + "." + Decimal(address[1]) + "."
                   + Decimal(address[2]) + "." + Decimal(address[3]);
      ParseDottedQuad(s) == Some(address)
  {
    var d0, d1, d2, d3 := Decimal(address[0]), Decimal(address[1]), Decimal(address[2]), Decimal(address[3]);
    DecimalHasNoDot(address[0]);
    DecimalHasNoDot(address[1]);
    DecimalHasNoDot(address[2]);
    DecimalHasNoDot(address[3]);
    SplitFour(d0, d1, d2, d3);
    var s := d0 + "." + d1 + "." + d2 + "." + d3;
    assert s[|s| - 1] == d3[|d3| - 1] != '.';
    var parts := Segments(s, '.');
    assert parts == [d0, d1, d2, d3];
    DecimalRoundTrip(address[0]);
    DecimalRoundTrip(address[1]);
    DecimalRoundTrip(address[2]);
    DecimalRoundTrip(address[3]);
    assert ParseDottedQuad(s) == Some([address[0], address[1], address[2], address[3]]);
    assert [address[0], address[1], address[2], address[3]] == address;
  }

  /** Distinct addresses print differently. */
  lemma Ip2StrInjective(a: Octets, b: Octets)
    requires Ip2Str(a) == Ip2Str(b)
    ensures a == b
  {
  }

  /** The trial index after whose failed poll " failed! :(" is printed. */
  const FailedNoticeTrial: nat := 59

  function Max0(x: int): nat {
    if x < 0 then 0 else x
  }

  /** Some poll of attempt `a` among the first `trials` reports connected. */
  ghost predicate AttemptConnects(connected: (nat, nat) -> bool, a: nat, trials: int) {
    exists t: nat :: t < trials && connected(a, t)
  }

  /** None of the first `k` polls of attempt `a` reports connected. */
  ghost predicate NoConnectBefore(connected: (nat, nat) -> bool, a: nat, k: int) {
    forall t: nat :: t < k ==> !connected(a, t)
  }

  /** The number of attempts below `n` that print the failure notice: those
      whose first sixty polls all fail, when there are that many trials. */
  ghost function Notices(connected: (nat, nat) -> bool, maxTrials: int, n: nat): nat {
    if n == 0 then 0
    else Notices(connected, maxTrials, n - 1)
         + (if maxTrials > FailedNoticeTrial && NoConnectBefore(connected, n - 1, FailedNoticeTrial + 1) then 1 else 0)
  }

  /** `setupWifiClient(maxTrials, maxAttempts)`.  `configured` says whether
      the build defines both `WIFI_SSID` and `WIFI_PASS`; without them the
      function returns false before any radio work.  `begins` counts
      `WiFi.begin` calls, `polls` status polls, `waits` one-second waits and
      `notices` the " failed! :(" lines. */
  method SetupWifiClient(configured: bool, maxTrials: int, maxAttempts: int, connected: (nat, nat) -> bool)
    returns (ok: bool, begins: nat, polls: nat, waits: nat, notices: nat)
    ensures ok <==> configured && exists a: nat, t: nat :: a < maxAttempts && t < maxTrials && connected(a, t)
    ensures !configured ==> begins == 0 && polls == 0 && waits == 0 && notices == 0
    ensures begins <= Max0(maxAttempts)
    ensures configured && !ok ==> begins == Max0(maxAttempts) && polls == begins * Max0(maxTrials) && waits == polls
    ensures ok ==> 0 < begins && polls == waits + 1
    ensures ok ==> forall a: nat :: a < begins - 1 ==> !AttemptConnects(connected, a, maxTrials)
    ensures ok ==> var t := polls - (begins - 1) * maxTrials - 1;
      && 0 <= t < maxTrials
      && connected(begins - 1, t)
      && NoConnectBefore(connected, begins - 1, t)
    ensures waits <= Max0(maxTrials) * Max0(maxAttempts)
    ensures notices == Notices(connected, maxTrials, begins)
  {
    ok, begins, polls, waits, notices := false, 0, 0, 0, 0;
    if !configured {
      return;
    }
    var attempt := 0;
    while attempt < maxAttempts
      invariant 0 <= attempt <= Max0(maxAttempts)
      invariant begins == attempt
      invariant polls == attempt * Max0(maxTrials) && waits == polls
      invariant forall a: nat :: a < attempt ==> !AttemptConnects(connected, a, maxTrials)
      invariant notices == Notices(connected, maxTrials, attempt)
    {
      begins := begins + 1;
      var success := false;
      var trial := 0;
      while trial < maxTrials
        invariant 0 <= trial <= Max0(maxTrials)
        invariant polls == attempt * Max0(maxTrials) + trial && waits == polls
        invariant NoConnectBefore(connected, attempt, trial)
        invariant notices == Notices(connected, maxTrials, attempt)
                           + (if trial > FailedNoticeTrial then 1 else 0)
      {
        polls := polls + 1;
        if !connected(attempt, trial) {
          waits := waits + 1;
        } else {
          success := true;
          break;
        }
        if trial == FailedNoticeTrial {
          notices := notices + 1;
        }
        trial := trial + 1;
      }
      if success {
        ok := true;
        assert Notices(connected, maxTrials, begins)
            == Notices(connected, maxTrials, attempt)
             + (if maxTrials > FailedNoticeTrial && NoConnectBefore(connected, attempt, FailedNoticeTrial + 1) then 1 else 0);
        assert polls - (begins - 1) * maxTrials - 1 == trial;
        WaitsBound(attempt, trial, maxTrials, maxAttempts);
        return;
      }
      assert !AttemptConnects(connected, attempt, maxTrials);
      attempt := attempt + 1;
      assert polls == attempt * Max0(maxTrials) by {
        assert attempt * Max0(maxTrials) == (attempt - 1) * Max0(maxTrials) + Max0(maxTrials);
      }
    }
    assert forall a: nat, t: nat :: a < maxAttempts && t < maxTrials ==> !connected(a, t) by {
      forall a: nat, t: nat | a < maxAttempts && t < maxTrials
        ensures !connected(a, t)
      {
        assert !AttemptConnects(connected, a, maxTrials);
      }
    }
    MulMonotone(attempt, Max0(maxAttempts), Max0(maxTrials));
  }

  /** The waits of a successful run stay below the documented worst case. */
  lemma WaitsBound(attempt: nat, trial: nat, maxTrials: int, maxAttempts: int)
    requires attempt < maxAttempts && trial < maxTrials
    ensures attempt * maxTrials + trial <= Max0(maxTrials) * Max0(maxAttempts)
  {
    MulMonotone(attempt + 1, maxAttempts, maxTrials);
    assert (attempt + 1) * maxTrials == attempt * maxTrials + maxTrials;
    assert maxAttempts * maxTrials == maxTrials * maxAttempts;
  }

  lemma MulMonotone(a: nat, b: nat, c: nat)
    requires a <= b
    ensures a * c <= b * c
  {
    assert b * c == a * c + (b - a) * c;
  }
}
